=== FILE: README.md ===
# Book, collection-tree and contributor store

This project models the rules that the book views of the open-law web application enforce before they write to the database. It then proves properties of those rules.

The store holds these tables:
- books, with an owner, a soft-delete flag and ordered versions;
- versions, each with a root collection;
- collections, each with a label, a description, an optional parent and the `is_leaf`, `is_root` and `is_deleted` flags;
- sections, interpretations and comments;
- the contributor table, rows of (user, book, role);
- access groups, and the bindings of books and collections to them.

It is modelled twice:
- as values: each collection view is a pure function from the store before the request (`Records.Db`) to its outcome and the store after it (`Records.Step`), and each contributor view is a pure function from the contributor table (a sequence of rows) to its outcome and the new table (`ContributorTable.TableStep`);
- as the class `Store.BookStore`, whose fields are the tables and whose methods run each view's guards in order and then update the tables in place.

Each method's `ensures` ties its outcome and the new tables to the view's function. Those functions state the guard behaviour, every error outcome and the frame of each view. Lemmas beside them prove what the views keep true:
- references stay resolved and ids stay fresh;
- there is one contributor row per (user, book);
- live sibling labels stay unique;
- what happens when the same request is repeated.

The test helpers of `tests/utils.py` are modelled as well:
- The nested-deletion checks are predicates in `NestedDeletion`. They are the postcondition of a cascade soft delete (`Store.BookStore.SoftDeleteBook`).
- The `create_test_book` fixture is an imperative method (`Store.BookStore.CreateTestBook`). Its result is described by `Fixture.TestBook`, and the tree it builds is proved in `Fixture`.

Modules:
- `Records` (types.dfy): rows, the store snapshot, well-formedness, outcomes.
- `ContributorTable` (contributors.dfy): add, delete and edit-role on the contributor table.
- `CollectionTree` (tree.dfy): `create`, `collection_create`, `collection_edit`, `collection_delete`.
- `NestedDeletion` (cascade.dfy): the `check_if_nested_*_entities_is_deleted` helpers and a soft delete they accept.
- `Fixture` (fixture.dfy): the `create_test_book` fixture.
- `Store` (store.dfy): the class `BookStore` with the views and the fixture as methods.

## Model

| member | source | states |
|---|---|---|
| ContributorTable.FindRow | app/views/book/settings.py:35-37 | `.first()` on (user, book): the result is a matching row, and it is absent exactly when no row matches; the query has no `order_by`, so taking the least index is this model's choice, which makes no difference while the table keeps one row per pair |
| ContributorTable.Add | app/views/book/settings.py:34-58 | form rejected iff the form does not validate; "Already exists!" iff the form is valid and a row for (user, book) exists; an uncaught error iff the form is valid, there is no such row and the role does not decode; success iff the form is valid, there is no such row and the role decodes; success appends exactly the row (user, book, role) and keeps every existing row; every other outcome leaves the table unchanged |
| ContributorTable.Delete | app/views/book/settings.py:67-93 | form rejected iff the form does not validate; an uncaught error iff the form is valid and `int(form.user_id.data)` fails on a non-numeric id, before the lookup; "Does not exists!" iff the form is valid, the id decodes and no row matches; success iff the form is valid, the id decodes and a row matches, and then exactly one matching row is removed and the remaining rows keep their order; every other outcome leaves the table unchanged |
| ContributorTable.EditRole | app/views/book/settings.py:102-130 | form rejected iff the form does not validate; "Does not exists!" iff the form is valid, the user id decodes and no row matches; an uncaught error iff the form is valid and either the user id does not decode (before the lookup) or a row matches and the role does not decode; success iff the form is valid, the user id decodes, a row matches and the role decodes; on success every user and book column is untouched, non-matching rows are unchanged, and a matching row carries the new role |
| ContributorTable.CountAtMostOne | app/views/book/settings.py:35-48 | with one row per pair, no (user, book) has more than one row |
| ContributorTable.AddKeepsOneRowPerPair | app/views/book/settings.py:35-48 | the existence check before the insert keeps one row per (user, book) |
| ContributorTable.AddTwiceRefused | app/views/book/settings.py:35-48 | after a successful add the pair has exactly one row, and a second add of the same user is refused with "Already exists!" and changes nothing |
| ContributorTable.DeleteKeepsOneRowPerPair | app/views/book/settings.py:68-83 | removing the found row keeps one row per (user, book) |
| ContributorTable.DeleteTwiceDoesNotExist | app/views/book/settings.py:68-83 | on a table with one row per pair, a successful delete leaves no row for the pair, so deleting again reports "Does not exists!" |
| ContributorTable.EditRoleKeepsOneRowPerPair | app/views/book/settings.py:116-125 | changing a role keeps one row per (user, book) |
| ContributorTable.EditRoleIdempotent | app/views/book/settings.py:103-125 | setting the role of an existing contributor succeeds, and setting the same role again succeeds and changes nothing |
| CollectionTree.CreateBookLastRoot | app/views/book.py:60-66 | right after `create`, `book.versions[-1].root_collection.id` of the new book is the root collection `create` inserted |
| CollectionTree.CreateBook | app/views/book.py:57-69 | `create` succeeds iff the form is valid, is refused iff it is not, and on success changes only the books, versions and collections tables and the id counter; a rejected form changes nothing |
| CollectionTree.CreateBookKeepsWellFormed | app/views/book.py:60-66 | creating a book keeps every reference resolved and every id fresh |
| CollectionTree.CreateBookScaffold | app/views/book.py:60-66 | a successful create adds exactly one book owned by the caller whose only version is a new live "1.0.0" version, whose root is a new live, non-leaf collection labelled "Root Collection" with `is_root` set; every existing row is kept |
| CollectionTree.CreateBookFresh | app/views/book.py:60-66 | the scaffold's book, version and root take the next three ids |
| CollectionTree.CreateBookThenCollection | app/views/book.py:383-412 | on a store whose collection parents resolve, a top-level collection created in a book just made by `create` is accepted whatever its label and is placed under that book's new root |
| CollectionTree.CreateCollection | app/views/book.py:346-426 | each outcome holds iff its guard fails first, in the view's order: not owner (missing, foreign or deleted book), parent missing or deleted, leaf parent, form rejected, then duplicate label among live siblings under the scope; success iff all guards pass and the last version has a root; the request fails with an uncaught error iff the guards and the uniqueness check pass but the last version has no root; success adds one collection under the next id and changes nothing else; every refusal changes nothing |
| CollectionTree.CreateCollectionKeepsWellFormed | app/views/book.py:402-412 | creating a collection keeps every reference resolved and every id fresh |
| CollectionTree.CreateAddsOneCollection | app/views/book.py:402-412 | a successful create adds exactly one live, non-root collection with the form's label and description, under the given collection as a leaf or otherwise under the last version's root as a non-leaf, and keeps every existing collection |
| CollectionTree.CreateTwiceDuplicate | app/views/book.py:378-400 | repeating a successful create with the same label and parent is refused as a duplicate label and changes nothing |
| CollectionTree.CreateKeepsSiblingLabelsUnique | app/views/book.py:377-412 | creation keeps live sibling labels unique |
| CollectionTree.EditScopeIsRealParent | app/views/book.py:477-482 | when a collection with a parent is edited, or a sub-collection is edited through its real parent, the edit's uniqueness query looks under the target's own parent |
| CollectionTree.EditRootUnhandled | app/views/book.py:479-482 | editing a root collection without a sub-collection id fails on `collection_to_edit.parent.id` and writes nothing |
| CollectionTree.EditedEmptyKeeps | app/views/book.py:495-500 | an edit with an empty label and an empty description leaves the collection as it was |
| CollectionTree.EditedThenEdited | app/views/book.py:495-500 | two partial edits in a row equal one edit with the later non-empty fields, so repeating an edit changes nothing more |
| CollectionTree.EditCollection | app/views/book.py:434-520 | outcomes in the view's order, each an iff: not owner, collection missing or deleted, sub-collection missing or deleted, form rejected, an uncaught error when the target has no parent and no sub-collection id is given, then a duplicate label on another live collection under the scope (the target itself excluded); success changes only the target's label and description as partial updates, and every refusal changes nothing |
| CollectionTree.EditCollectionKeepsWellFormed | app/views/book.py:495-503 | editing keeps every reference resolved and every id fresh |
| CollectionTree.EditKeepsSiblingLabelsUnique | app/views/book.py:470-503 | editing keeps live sibling labels unique when the scope checked is the target's real parent |
| CollectionTree.EditCollectionInParent | app/views/book.py:470-503 | the edit with its uniqueness query under the target's own parent: the guards and form check give the view's outcomes; a refusal writes nothing; success rewrites only the target, as `Edited` |
| CollectionTree.EditInParentAgreesThroughRealParent | app/views/book.py:470-503 | on a store whose parents resolve, the corrected edit and the view agree whenever no sub-collection id is given or the sub-collection hangs under the URL collection |
| CollectionTree.EditInParentKeepsSiblingLabelsUnique | app/views/book.py:470-503 | on a store whose parents resolve, the corrected edit keeps live sibling labels unique for every URL, including a collection that is not the sub-collection's parent |
| CollectionTree.EditThroughForeignParentBreaksUniqueness | app/views/book.py:449-482 | the view does not check that the sub-collection hangs under the URL's collection, so an edit through another collection can give two live siblings the same label |
| CollectionTree.DeleteCollection | app/views/book.py:529-569 | not owner iff the book is missing or foreign (the deleted flag is not checked); then collection not found, then sub-collection not found; success iff both targets are live, and then only the target's `is_deleted` becomes true; every refusal changes nothing |
| CollectionTree.DeleteCollectionKeepsWellFormed | app/views/book.py:558-561 | a soft delete keeps every reference resolved and every id fresh |
| CollectionTree.DeleteTwiceNotFound | app/views/book.py:538-561 | repeating a successful delete reports the target as not found ("Collection not found" or "SubCollection not found") and changes nothing |
| CollectionTree.DeleteIgnoresDeletedBook | app/views/book.py:532-536 | on a deleted book the owner can still delete a live collection, while create and edit on that book are refused as not owner |
| CollectionTree.DeleteKeepsSiblingLabelsUnique | app/views/book.py:558-561 | soft deletion keeps live sibling labels unique |
| NestedDeletion.CommentCheck | tests/utils.py:160-165 | `check_if_nested_comment_entities_is_deleted`: every direct reply to the comment carries the flag; replies of replies are not looked at |
| NestedDeletion.InterpretationCheck | tests/utils.py:152-157 | `check_if_nested_interpretation_entities_is_deleted`: every comment of the interpretation carries the flag; the comment check is not called, so replies are not followed |
| NestedDeletion.SectionCheck | tests/utils.py:142-149 | `check_if_nested_section_entities_is_deleted`: every interpretation of the section carries the flag and passes the interpretation check with the same flag |
| NestedDeletion.CollectionCheck | tests/utils.py:133-139 | `check_if_nested_collection_entities_is_deleted`: every section of the collection itself carries the flag and passes the section check with the same flag; child collections are not visited |
| NestedDeletion.VersionCheck | tests/utils.py:121-130 | `check_if_nested_version_entities_is_deleted`: the version has a root, the root and each direct child of the root carry the flag, and each child passes the collection check for "deleted", because the flag is not passed on; a version without a root fails |
| NestedDeletion.BookCheck | tests/utils.py:113-118 | `check_if_nested_book_entities_is_deleted`: every version of the book carries the flag and passes the version check for "deleted", because the flag is not passed on; the book's own flag is not looked at |
| NestedDeletion.ForwardedVersionCheck | tests/utils.py:121-130 | the version check with the flag passed on to the collection checks of the root's children |
| NestedDeletion.ForwardedBookCheck | tests/utils.py:113-118 | the book check with the flag passed on to the forwarded version check, so every level checks the same flag |
| NestedDeletion.ForwardedBookCheckAgreesOnDeleted | tests/utils.py:113-130 | for the flag "deleted" the book check as written and the book check that passes its flag on accept the same stores |
| NestedDeletion.MarkBookDeleted | tests/utils.py:113-157 | the soft delete changes deleted flags only, only from false to true, and marks the book deleted |
| NestedDeletion.MarkBookDeletedPassesBookCheck | tests/utils.py:113-157 | on a well-formed store in which every version of the book has a root, the soft delete passes the book check for "deleted", keeps the store well formed and changes nothing but flags |
| NestedDeletion.BookCheckDemandsDeletedRoots | tests/utils.py:113-130 | whatever flag the book check is given, it accepts only stores in which each version's root and each of the root's children are deleted |
| NestedDeletion.CollectionCheckWithoutSections | tests/utils.py:133-139 | the collection check looks only at the collection's own sections, so a collection without sections passes it for either flag, whatever its child collections hold |
| NestedDeletion.CollectionDeleteKeepsCollectionChecks | app/views/book.py:558-561 | the collection delete view changes no section, interpretation or comment, so every collection check gives the same answer before and after it |
| NestedDeletion.CreatedThenDeletedPassesCheck | app/views/book.py:402-412 | a collection created and then deleted through the views is deleted and passes the collection check |
| Fixture.DecimalString | tests/utils.py:35 | an `int` in an f-string: a leading '-' exactly for a negative number, followed by decimal digits whose value is the number's magnitude |
| Fixture.LabelsFor | tests/utils.py:35-81 | the fixture's f-string labels for entity id `e`: `Book {e}`, `About {e}`, `Collection {e}` for both root children, `subCollection {e}`, `Section {e}`, `Interpretation Text {e}` and `Comment {e}` |
| Fixture.TestBook | tests/utils.py:33-110 | the fixture's store takes eleven fresh ids, adds one book and four collections, and leaves the contributor table alone |
| Fixture.TestBookWellFormed | tests/utils.py:33-110 | the fixture keeps every reference resolved and every id fresh |
| Fixture.TestBookTree | tests/utils.py:40-82 | the root's children are exactly the leaf and the second child; the second child's only child is the leaf sub-collection; the leaf and the sub-collection have no children |
| Fixture.TestBookContent | tests/utils.py:51-68 | the leaf holds the fixture's only section, which holds exactly one interpretation, which holds exactly one comment |
| Fixture.TestBookDuplicatesSiblingLabel | tests/utils.py:44-75 | both root children get the label `Collection {entity_id}`, so the fixture's store breaks sibling-label uniqueness, which only the views keep |
| Fixture.TestBookAccessGroups | tests/utils.py:84-106 | the book and each of the four collections are bound to exactly the fixture's editor group and moderator group, both of which belong to the book |
| Fixture.TestBookFailsBookCheck | tests/utils.py:113-130 | on the fresh fixture book the book check as written fails for either flag |
| Fixture.TestBookPassesForwardedCheck | tests/utils.py:113-130 | with the flag passed on, the fresh fixture book passes the check for "not deleted" |
| Fixture.TestBookDeletedPassesBookCheck | tests/utils.py:113-165 | soft-deleting the fixture's book passes the book check for "deleted" |
| Store.BookStore.CreateBook | app/views/book.py:57-69 | the outcome and the new tables are those of `CollectionTree.CreateBook`, and the store stays valid |
| Store.BookStore.CreateCollection | app/views/book.py:346-426 | the guards run in the view's order; the outcome and the new tables are those of `CollectionTree.CreateCollection`; the store stays valid |
| Store.BookStore.CreateValidatedCollection | app/views/book.py:377-419 | once the guards and the form pass, the uniqueness query and the insert agree with `CollectionTree.CreateCollection` |
| Store.BookStore.EditCollection | app/views/book.py:434-520 | the guards run in the view's order; the outcome and the new tables are those of `CollectionTree.EditCollection`; the store stays valid |
| Store.BookStore.EditValidatedCollection | app/views/book.py:470-503 | once the guards and the form pass, the uniqueness query and the update agree with `CollectionTree.EditCollection` |
| Store.BookStore.ApplyEdit | app/views/book.py:495-503 | the field assignments update only the target row, as `CollectionTree.Edited` |
| Store.BookStore.DeleteCollection | app/views/book.py:529-569 | the outcome and the new tables are those of `CollectionTree.DeleteCollection`, and the store stays valid |
| Store.BookStore.AddContributor | app/views/book/settings.py:31-58 | the new contributor table and the outcome are those of `ContributorTable.Add`, and one row per pair is kept |
| Store.BookStore.DeleteContributor | app/views/book/settings.py:64-93 | the new contributor table and the outcome are those of `ContributorTable.Delete`, and one row per pair is kept |
| Store.BookStore.EditContributorRole | app/views/book/settings.py:99-134 | the new contributor table and the outcome are those of `ContributorTable.EditRole`, and one row per pair is kept |
| Store.BookStore.OwnerAddContributor | app/views/book.py:213-248 | a caller who does not own the live book gets "not owner" and the table is unchanged; otherwise the view behaves as `ContributorTable.Add` |
| Store.BookStore.OwnerDeleteContributor | app/views/book.py:251-288 | a caller who does not own the live book gets "not owner" and the table is unchanged; otherwise the view behaves as `ContributorTable.Delete` |
| Store.BookStore.OwnerEditContributorRole | app/views/book.py:291-335 | a caller who does not own the live book gets "not owner" and the table is unchanged; otherwise the view behaves as `ContributorTable.EditRole` |
| Store.BookStore.CreateTestBook | tests/utils.py:33-110 | the inserts leave the store `Fixture.TestBook` describes, return the ids the store handed out and keep the store valid |
| Store.BookStore.InsertTestRows | tests/utils.py:34-82 | the book, version, root, leaf, section, interpretation, comment, second child and sub-collection rows are inserted under consecutive ids |
| Store.BookStore.BindTestGroups | tests/utils.py:84-106 | the loop over the two groups adds exactly the bindings of the book and of the four collections to each group |
| Store.BookStore.SoftDeleteBook | tests/utils.py:113-165 | the cascade soft delete raises only deleted flags, marks the book deleted, leaves a store that passes the book check for "deleted", and keeps the store valid |

## Left out

- The owner check of the route decorator in `app/views/book/settings.py` is not part of this model. The settings views take "the caller owns the live book" as a precondition. The duplicated views in `app/views/book.py` run that check themselves and are modelled with it.
- The real cascade of a book deletion lives in model-layer code that is not part of this model. `Store.BookStore.SoftDeleteBook` promises only what the nested-deletion checks read: deleted flags only go up, the book is deleted, and the book check for "deleted" passes. It does not promise that deeper descendants are deleted, such as the grandchildren of a version's root. Its body commits `NestedDeletion.MarkBookDeleted`, which marks the book and the rows those checks read.
- Book edit and book delete are not modelled, because their route code is not part of this model. Section, interpretation and comment create, edit and delete are not modelled for the same reason.
- CollectionTree.CreateBook: its frame says that only the books, versions and collections tables and the id counter change. The model-layer hooks that are not part of this model also give a new book an editor group and a moderator group and bind its root to both. So the real `create` also writes `accessGroups`, `bookAccess` and `collectionAccess`, and this frame leaves those writes out. `Store.BookStore.CreateBook` inherits the same frame.
- CollectionTree.CreateCollection: its success frame says that only the collections table and the id counter change. The same hooks also bind a new collection to its book's access groups, which writes `collectionAccess`; this frame leaves that write out. `Store.BookStore.CreateCollection` inherits the same frame.
- The `version_id` of a collection created by `collection_create` is not modelled. The view never sets it.
- The access-group creators `create_editor_group` and `create_moderator_group` are not part of this model. Each is modelled as inserting one group row of its kind for the book.
- Form validation is a boolean parameter, because the WTForms validators are library code.
- The role decode `Roles(int(...))` is an `Option<Role>` parameter, where None stands for the ValueError the call raises. In the same way the user-id decode `int(form.user_id.data)` of the delete and edit-role views is an `Option<UserId>` parameter; the add view passes the id string to the query undecoded. `Role` holds the two members the tests use, Moderator and Editor.
- A Python exception the view does not catch is the outcome `Unhandled`. Its HTTP 500 response and its rollback are not modelled.
- Flash messages, redirects, `url_for`, logging, `login_required` and the session are not modelled. Each flash message is one `Outcome` constructor.
- The tests expect "Subcollection not found" (tests/test_book.py:525) where the view flashes "SubCollection not found". The model has no message text.
- Python treats an id of 0 as "no sub-collection". The model uses `Option` for the optional URL ids, so 0 is an ordinary id.
- Every table draws ids from one counter, `nextId`. The database's per-table sequences are not modelled.
- A `None` description is modelled as the empty string. `create` sets no description on the book, and the fixture sets none on its collections.
- The fixture's default `entity_id` is `randint(1, 100)`, evaluated once when the module loads. Here it is the parameter `e`.
- Concurrent requests and the check-then-insert race between them are not modelled.
- Search, the app factory, the user forms and the migration are not modelled. None of them has state rules of its own.

## Findings

| source | as written | input that shows it | evidently intended | confidence | as-written member | corrected member |
|---|---|---|---|---|---|---|
| tests/utils.py:113-130 | the book and version checks call the next check without passing `is_deleted` on, so every level below them always checks for "deleted" | `create_test_book` followed by `check_if_nested_book_entities_is_deleted(book, False)`: the live root fails the version check for "deleted" | the flag reaches every level, so a live book passes the check for "not deleted" | not executed | Fixture.TestBookFailsBookCheck | Fixture.TestBookPassesForwardedCheck |
| app/views/book.py:471-482 | when a sub-collection id is given, the edit's uniqueness query looks under the URL's collection, and nothing checks that the sub-collection hangs under it | a sub-collection edited through a URL collection under which the label is free, taking the label of a live sibling: the edit succeeds and two live siblings share the label | the query looks under the edited collection's own parent, so live sibling labels stay unique | not executed | CollectionTree.EditThroughForeignParentBreaksUniqueness | CollectionTree.EditInParentKeepsSiblingLabelsUnique |

=== FILE: cascade.dfy ===
/**
 * What the test helpers `check_if_nested_*_entities_is_deleted` accept, as
 * predicates over the store.  Each level compares the deleted flag of the
 * rows one level down with `flag`; the book and version levels call the next
 * level without passing `flag` on, so below them the helpers always check for
 * "deleted".
 */
module NestedDeletion {
  import opened Records
  import CollectionTree

  /** check_if_nested_comment_entities_is_deleted: every direct reply carries the flag. */
  predicate CommentCheck(db: Db, cm: CommentId, flag: bool)
  {
    forall k :: k in db.comments && db.comments[k].parent == Some(cm) ==>
      db.comments[k].isDeleted == flag
  }

  /**
   * check_if_nested_interpretation_entities_is_deleted: every comment of the
   * interpretation carries the flag (replies are not followed further).
   */
  predicate InterpretationCheck(db: Db, i: InterpretationId, flag: bool)
  {
    forall k :: k in db.comments && db.comments[k].interpretation == i ==>
      db.comments[k].isDeleted == flag
  }

  /** check_if_nested_section_entities_is_deleted. */
  predicate SectionCheck(db: Db, s: SectionId, flag: bool)
  {
    forall i :: i in db.interpretations && db.interpretations[i].section == s ==>
      db.interpretations[i].isDeleted == flag && InterpretationCheck(db, i, flag)
  }

  /**
   * check_if_nested_collection_entities_is_deleted: the collection's own
   * sections and what hangs below them; child collections are not visited.
   */
  predicate CollectionCheck(db: Db, c: CollectionId, flag: bool)
  {
    forall s :: s in db.sections && db.sections[s].collection == c ==>
      db.sections[s].isDeleted == flag && SectionCheck(db, s, flag)
  }

  /**
   * check_if_nested_version_entities_is_deleted: the root and each direct
   * child of the root carry the flag, and each child passes the collection
   * check for "deleted".  A version without a root fails.
   */
  predicate VersionCheck(db: Db, v: VersionId, flag: bool)
  {
    && v in db.versions
    && db.versions[v].root.Some?
    && db.versions[v].root.value in db.collections
    && db.collections[db.versions[v].root.value].isDeleted == flag
    && forall c :: c in db.collections && db.collections[c].parent == db.versions[v].root ==>
         db.collections[c].isDeleted == flag && CollectionCheck(db, c, true)
  }

  /**
   * check_if_nested_book_entities_is_deleted: every version carries the flag
   * and passes the version check for "deleted".  The book's own flag is not
   * looked at.
   */
  predicate BookCheck(db: Db, b: BookId, flag: bool)
  {
    b in db.books &&
    forall v :: v in db.books[b].versions ==>
      v in db.versions && db.versions[v].isDeleted == flag && VersionCheck(db, v, true)
  }

  // ---------------------------------------------------------------------------
  // The helpers with the flag passed on

  /** The version check as its parameter suggests: the flag reaches the collection checks. */
  predicate ForwardedVersionCheck(db: Db, v: VersionId, flag: bool)
  {
    && v in db.versions
    && db.versions[v].root.Some?
    && db.versions[v].root.value in db.collections
    && db.collections[db.versions[v].root.value].isDeleted == flag
    && forall c :: c in db.collections && db.collections[c].parent == db.versions[v].root ==>
         db.collections[c].isDeleted == flag && CollectionCheck(db, c, flag)
  }

  /** The book check as its parameter suggests: the flag reaches every level. */
  predicate ForwardedBookCheck(db: Db, b: BookId, flag: bool)
  {
    b in db.books &&
    forall v :: v in db.books[b].versions ==>
      v in db.versions && db.versions[v].isDeleted == flag && ForwardedVersionCheck(db, v, flag)
  }

  /** For "deleted" the two book checks agree, so the tests' use of the helper is unaffected. */
  lemma ForwardedBookCheckAgreesOnDeleted(db: Db, b: BookId)
    ensures ForwardedBookCheck(db, b, true) <==> BookCheck(db, b, true)
  {
  }

  // ---------------------------------------------------------------------------
  // A soft delete the helpers accept

  // Each table's rows keep everything but the deleted flag, which may only go
  // from false to true.

  ghost predicate BooksRaised(before: map<BookId, Book>, after: map<BookId, Book>)
  {
    after.Keys == before.Keys &&
    forall k :: k in before ==>
      after[k] == before[k].(isDeleted := after[k].isDeleted) &&
      (before[k].isDeleted ==> after[k].isDeleted)
  }

  ghost predicate VersionsRaised(before: map<VersionId, Version>, after: map<VersionId, Version>)
  {
    after.Keys == before.Keys &&
    forall k :: k in before ==>
      after[k] == before[k].(isDeleted := after[k].isDeleted) &&
      (before[k].isDeleted ==> after[k].isDeleted)
  }

  ghost predicate CollectionsRaised(before: map<CollectionId, Collection>, after: map<CollectionId, Collection>)
  {
    after.Keys == before.Keys &&
    forall k :: k in before ==>
      after[k] == before[k].(isDeleted := after[k].isDeleted) &&
      (before[k].isDeleted ==> after[k].isDeleted)
  }

  ghost predicate SectionsRaised(before: map<SectionId, Section>, after: map<SectionId, Section>)
  {
    after.Keys == before.Keys &&
    forall k :: k in before ==>
      after[k] == before[k].(isDeleted := after[k].isDeleted) &&
      (before[k].isDeleted ==> after[k].isDeleted)
  }

  ghost predicate InterpretationsRaised(before: map<InterpretationId, Interpretation>, after: map<InterpretationId, Interpretation>)
  {
    after.Keys == before.Keys &&
    forall k :: k in before ==>
      after[k] == before[k].(isDeleted := after[k].isDeleted) &&
      (before[k].isDeleted ==> after[k].isDeleted)
  }

  ghost predicate CommentsRaised(before: map<CommentId, Comment>, after: map<CommentId, Comment>)
  {
    after.Keys == before.Keys &&
    forall k :: k in before ==>
      after[k] == before[k].(isDeleted := after[k].isDeleted) &&
      (before[k].isDeleted ==> after[k].isDeleted)
  }

  /**
   * `after` differs from `before` only in deleted flags, and only from false
   * to true: no row is added, removed or otherwise changed.
   */
  ghost predicate OnlyFlagsRaised(before: Db, after: Db)
  {
    && BooksRaised(before.books, after.books)
    && VersionsRaised(before.versions, after.versions)
    && CollectionsRaised(before.collections, after.collections)
    && SectionsRaised(before.sections, after.sections)
    && InterpretationsRaised(before.interpretations, after.interpretations)
    && CommentsRaised(before.comments, after.comments)
    && after.contributors == before.contributors
    && after.accessGroups == before.accessGroups
    && after.bookAccess == before.bookAccess
    && after.collectionAccess == before.collectionAccess
    && after.nextId == before.nextId
  }

  /** Raise the deleted flag of the given rows of the versions table. */
  function RaiseVersions(m: map<VersionId, Version>, ids: set<VersionId>): (r: map<VersionId, Version>)
    ensures VersionsRaised(m, r)
    ensures forall k :: k in ids && k in m ==> r[k].isDeleted
  {
    map k | k in m :: if k in ids then m[k].(isDeleted := true) else m[k]
  }

  /** Raise the deleted flag of the given rows of the collections table. */
  function RaiseCollections(m: map<CollectionId, Collection>, ids: set<CollectionId>): (r: map<CollectionId, Collection>)
    ensures CollectionsRaised(m, r)
    ensures forall k :: k in ids && k in m ==> r[k].isDeleted
  {
    map k | k in m :: if k in ids then m[k].(isDeleted := true) else m[k]
  }

  /** Raise the deleted flag of the given rows of the sections table. */
  function RaiseSections(m: map<SectionId, Section>, ids: set<SectionId>): (r: map<SectionId, Section>)
    ensures SectionsRaised(m, r)
    ensures forall k :: k in ids && k in m ==> r[k].isDeleted
  {
    map k | k in m :: if k in ids then m[k].(isDeleted := true) else m[k]
  }

  /** Raise the deleted flag of the given rows of the interpretations table. */
  function RaiseInterpretations(m: map<InterpretationId, Interpretation>, ids: set<InterpretationId>): (r: map<InterpretationId, Interpretation>)
    ensures InterpretationsRaised(m, r)
    ensures forall k :: k in ids && k in m ==> r[k].isDeleted
  {
    map k | k in m :: if k in ids then m[k].(isDeleted := true) else m[k]
  }

  /** Raise the deleted flag of the given rows of the comments table. */
  function RaiseComments(m: map<CommentId, Comment>, ids: set<CommentId>): (r: map<CommentId, Comment>)
    ensures CommentsRaised(m, r)
    ensures forall k :: k in ids && k in m ==> r[k].isDeleted
  {
    map k | k in m :: if k in ids then m[k].(isDeleted := true) else m[k]
  }

  /** Every version of the book has a root collection (the version check fails otherwise). */
  predicate VersionsHaveRoots(db: Db, b: BookId)
    requires b in db.books
  {
    forall v :: v in db.books[b].versions ==> v in db.versions && db.versions[v].root.Some?
  }

  /** The roots of the book's versions. */
  function RootsOf(db: Db, b: BookId): (r: set<CollectionId>)
    requires b in db.books
  {
    set v | v in db.books[b].versions && v in db.versions && db.versions[v].root.Some? ::
      db.versions[v].root.value
  }

  /** The direct children of the given collections. */
  function ChildrenOf(db: Db, parents: set<CollectionId>): (r: set<CollectionId>)
  {
    set c | c in db.collections && db.collections[c].parent.Some? &&
            db.collections[c].parent.value in parents
  }

  /** The sections of the given collections. */
  function SectionsOf(db: Db, cs: set<CollectionId>): (r: set<SectionId>)
  {
    set s | s in db.sections && db.sections[s].collection in cs
  }

  /** The interpretations of the given sections. */
  function InterpretationsOf(db: Db, ss: set<SectionId>): (r: set<InterpretationId>)
  {
    set i | i in db.interpretations && db.interpretations[i].section in ss
  }

  /** The comments of the given interpretations. */
  function CommentsOf(db: Db, its: set<InterpretationId>): (r: set<CommentId>)
  {
    set k | k in db.comments && db.comments[k].interpretation in its
  }

  /**
   * Raise the deleted flag of book `b` and of the given versions,
   * collections, sections, interpretations and comments.
   */
  function RaiseFlags(db: Db, b: BookId, vs: set<VersionId>, cs: set<CollectionId>,
                      ss: set<SectionId>, its: set<InterpretationId>, ks: set<CommentId>): (r: Db)
    requires b in db.books
    ensures OnlyFlagsRaised(db, r)
    ensures r.books[b].isDeleted
    ensures forall v :: v in vs && v in db.versions ==> r.versions[v].isDeleted
    ensures forall c :: c in cs && c in db.collections ==> r.collections[c].isDeleted
    ensures forall s :: s in ss && s in db.sections ==> r.sections[s].isDeleted
    ensures forall i :: i in its && i in db.interpretations ==> r.interpretations[i].isDeleted
    ensures forall k :: k in ks && k in db.comments ==> r.comments[k].isDeleted
  {
    db.(
      books := db.books[b := db.books[b].(isDeleted := true)],
      versions := RaiseVersions(db.versions, vs),
      collections := RaiseCollections(db.collections, cs),
      sections := RaiseSections(db.sections, ss),
      interpretations := RaiseInterpretations(db.interpretations, its),
      comments := RaiseComments(db.comments, ks))
  }

  /** Raising flags keeps every id and every reference, so it keeps the store well formed. */
  lemma OnlyFlagsRaisedKeepsWellFormed(before: Db, after: Db)
    requires OnlyFlagsRaised(before, after) && WellFormed(before)
    ensures WellFormed(after)
  {
    BooksStayResolved(before, after);
    VersionsStayResolved(before, after);
    CollectionsStayResolved(before, after);
    SectionsStayResolved(before, after);
    InterpretationsStayResolved(before, after);
    CommentsStayResolved(before, after);
  }

  lemma BooksStayResolved(before: Db, after: Db)
    requires BooksRaised(before.books, after.books) && BooksResolved(before)
    requires after.versions.Keys == before.versions.Keys && after.nextId == before.nextId
    ensures BooksResolved(after)
  {
    forall k | k in after.books
      ensures k < after.nextId && forall v :: v in after.books[k].versions ==> v in after.versions
    {
      assert after.books[k].versions == before.books[k].versions;
    }
  }

  lemma VersionsStayResolved(before: Db, after: Db)
    requires VersionsRaised(before.versions, after.versions) && VersionsResolved(before)
    requires after.collections.Keys == before.collections.Keys && after.nextId == before.nextId
    ensures VersionsResolved(after)
  {
    forall k | k in after.versions
      ensures k < after.nextId &&
              (after.versions[k].root.Some? ==> after.versions[k].root.value in after.collections)
    {
      assert after.versions[k].root == before.versions[k].root;
    }
  }

  lemma CollectionsStayResolved(before: Db, after: Db)
    requires CollectionsRaised(before.collections, after.collections) && CollectionsResolved(before)
    requires after.nextId == before.nextId
    ensures CollectionsResolved(after)
  {
    forall k | k in after.collections
      ensures k < after.nextId &&
              (after.collections[k].parent.Some? ==>
                 after.collections[k].parent.value in after.collections)
    {
      assert after.collections[k].parent == before.collections[k].parent;
    }
  }

  lemma SectionsStayResolved(before: Db, after: Db)
    requires SectionsRaised(before.sections, after.sections) && SectionsResolved(before)
    requires after.collections.Keys == before.collections.Keys && after.nextId == before.nextId
    ensures SectionsResolved(after)
  {
    forall k | k in after.sections
      ensures k < after.nextId && after.sections[k].collection in after.collections
    {
      assert after.sections[k].collection == before.sections[k].collection;
    }
  }

  lemma InterpretationsStayResolved(before: Db, after: Db)
    requires InterpretationsRaised(before.interpretations, after.interpretations)
    requires InterpretationsResolved(before)
    requires after.sections.Keys == before.sections.Keys && after.nextId == before.nextId
    ensures InterpretationsResolved(after)
  {
    forall k | k in after.interpretations
      ensures k < after.nextId && after.interpretations[k].section in after.sections
    {
      assert after.interpretations[k].section == before.interpretations[k].section;
    }
  }

  lemma CommentsStayResolved(before: Db, after: Db)
    requires CommentsRaised(before.comments, after.comments) && CommentsResolved(before)
    requires after.interpretations.Keys == before.interpretations.Keys
    requires after.nextId == before.nextId
    ensures CommentsResolved(after)
  {
    forall k | k in after.comments
      ensures k < after.nextId && after.comments[k].interpretation in after.interpretations &&
              (after.comments[k].parent.Some? ==> after.comments[k].parent.value in after.comments)
    {
      assert after.comments[k].interpretation == before.comments[k].interpretation;
      assert after.comments[k].parent == before.comments[k].parent;
    }
  }

  /**
   * Mark deleted the book and exactly the rows the book check reads: its
   * versions, their roots, the roots' children, those children's sections,
   * their interpretations and those interpretations' comments.
   */
  function MarkBookDeleted(db: Db, b: BookId): (r: Db)
    requires b in db.books
    ensures OnlyFlagsRaised(db, r)
    ensures r.books[b].isDeleted
  {
    var roots := RootsOf(db, b);
    var children := ChildrenOf(db, roots);
    var secs := SectionsOf(db, children);
    var ints := InterpretationsOf(db, secs);
    var vs := set v | v in db.books[b].versions;
    RaiseFlags(db, b, vs, roots + children, secs, ints, CommentsOf(db, ints))
  }

  /**
   * Marking the book deleted this way is a soft delete the book check
   * accepts: only flags go up, the book is deleted, and every version and
   * everything the helpers read below it is deleted.
   */
  lemma MarkBookDeletedPassesBookCheck(db: Db, b: BookId)
    requires b in db.books && WellFormed(db) && VersionsHaveRoots(db, b)
    ensures OnlyFlagsRaised(db, MarkBookDeleted(db, b))
    ensures MarkBookDeleted(db, b).books[b].isDeleted
    ensures BookCheck(MarkBookDeleted(db, b), b, true)
    ensures WellFormed(MarkBookDeleted(db, b))
  {
    var r := MarkBookDeleted(db, b);
    OnlyFlagsRaisedKeepsWellFormed(db, r);
    var roots := RootsOf(db, b);
    var children := ChildrenOf(db, roots);
    var secs := SectionsOf(db, children);
    var ints := InterpretationsOf(db, secs);
    var cms := CommentsOf(db, ints);
    forall v | v in r.books[b].versions
      ensures v in r.versions && r.versions[v].isDeleted && VersionCheck(r, v, true)
    {
      assert v in db.versions && r.versions[v].root == db.versions[v].root;
      var root := db.versions[v].root.value;
      assert root in roots;
      forall c | c in r.collections && r.collections[c].parent == r.versions[v].root
        ensures r.collections[c].isDeleted && CollectionCheck(r, c, true)
      {
        assert r.collections[c].parent == db.collections[c].parent;
        assert c in children;
        forall s | s in r.sections && r.sections[s].collection == c
          ensures r.sections[s].isDeleted && SectionCheck(r, s, true)
        {
          assert r.sections[s].collection == db.sections[s].collection;
          assert s in secs;
          forall i | i in r.interpretations && r.interpretations[i].section == s
            ensures r.interpretations[i].isDeleted && InterpretationCheck(r, i, true)
          {
            assert r.interpretations[i].section == db.interpretations[i].section;
            assert i in ints;
            forall k | k in r.comments && r.comments[k].interpretation == i
              ensures r.comments[k].isDeleted
            {
              assert r.comments[k].interpretation == db.comments[k].interpretation;
              assert k in cms;
            }
          }
        }
      }
    }
  }

  // ---------------------------------------------------------------------------
  // Properties of the helpers

  /**
   * The flag is not passed below the version level: whatever flag the book
   * check is called with, every version's root and each of the root's
   * children must be deleted.
   */
  lemma BookCheckDemandsDeletedRoots(db: Db, b: BookId, flag: bool, v: VersionId, c: CollectionId)
    requires BookCheck(db, b, flag)
    requires v in db.books[b].versions
    requires c in db.collections
    requires Some(c) == db.versions[v].root ||
             (db.collections[c].parent.Some? && db.collections[c].parent == db.versions[v].root)
    ensures db.collections[c].isDeleted
  {
  }

  /** A collection without sections passes the collection check for either flag. */
  lemma CollectionCheckWithoutSections(db: Db, c: CollectionId, flag: bool)
    requires forall s :: s in db.sections ==> db.sections[s].collection != c
    ensures CollectionCheck(db, c, flag)
  {
  }

  /**
   * The collection delete view changes no section, interpretation or comment,
   * so it leaves every collection check as it was: in particular a check that
   * failed on a collection's sections before the delete still fails after it.
   */
  lemma CollectionDeleteKeepsCollectionChecks(db: Db, caller: UserId, bookId: BookId,
                                              collectionId: CollectionId,
                                              sub: Option<CollectionId>, c: CollectionId,
                                              flag: bool)
    ensures var after := CollectionTree.DeleteCollection(db, caller, bookId, collectionId, sub).db;
      CollectionCheck(after, c, flag) == CollectionCheck(db, c, flag)
  {
  }

  /**
   * The test scenario: a collection just created and then deleted through
   * the views passes the collection check, because a new collection has no
   * sections for the check to look at.
   */
  lemma CreatedThenDeletedPassesCheck(db: Db, caller: UserId, bookId: BookId,
                                      parent: Option<CollectionId>, title: string, about: string)
    requires WellFormed(db)
    requires CollectionTree.CreateCollection(db, caller, bookId, parent, title, about, true).outcome
             == Ok
    ensures var created :=
              CollectionTree.CreateCollection(db, caller, bookId, parent, title, about, true).db;
            var deleted := CollectionTree.DeleteCollection(created, caller, bookId, db.nextId, None);
            deleted.outcome == Ok && deleted.db.collections[db.nextId].isDeleted &&
            CollectionCheck(deleted.db, db.nextId, true)
  {
    var created := CollectionTree.CreateCollection(db, caller, bookId, parent, title, about, true).db;
    assert db.nextId !in db.collections;
    assert created.sections == db.sections;
    assert forall s :: s in created.sections ==> created.sections[s].collection != db.nextId;
    var deleted := CollectionTree.DeleteCollection(created, caller, bookId, db.nextId, None);
    assert CollectionTree.IsLive(created, db.nextId);
    assert deleted.db.sections == created.sections;
  }
}

=== FILE: contributors.dfy ===
/**
 * The contributor table of the book settings views: rows (user, book, role),
 * looked up with `filter_by(user_id, book_id).first()`, inserted, deleted and
 * updated in place.  Uniqueness of (user, book) is not a property of the table
 * itself: it is kept by the add view's existence check, and proved here as an
 * invariant of the three operations.
 */
module ContributorTable {
  import opened Records

  predicate Matches(row: Contributor, user: UserId, book: BookId)
  {
    row.user == user && row.book == book
  }

  /** Some row of the table is for (user, book). */
  predicate HasRow(rows: seq<Contributor>, user: UserId, book: BookId)
  {
    exists i :: 0 <= i < |rows| && Matches(rows[i], user, book)
  }

  lemma HasRowCons(rows: seq<Contributor>, user: UserId, book: BookId)
    requires |rows| > 0
    ensures HasRow(rows, user, book) <==>
            Matches(rows[0], user, book) || HasRow(rows[1..], user, book)
  {
    assert forall k :: 0 <= k < |rows| - 1 ==> rows[1..][k] == rows[k + 1];
  }

  /** No two rows of the table are for the same (user, book). */
  ghost predicate OneRowPerPair(rows: seq<Contributor>)
  {
    forall i, j :: 0 <= i < j < |rows| ==>
      !(rows[i].user == rows[j].user && rows[i].book == rows[j].book)
  }

  /** The number of rows for (user, book). */
  function Count(rows: seq<Contributor>, user: UserId, book: BookId): (n: nat)
    ensures n <= |rows|
    ensures n == 0 <==> !HasRow(rows, user, book)
    decreases |rows|
  {
    if |rows| == 0 then 0
    else
      var rest := Count(rows[1..], user, book);
      HasRowCons(rows, user, book);
      (if Matches(rows[0], user, book) then 1 else 0) + rest
  }

  /** The first row for (user, book), as `.first()` returns it. */
  function FindRow(rows: seq<Contributor>, user: UserId, book: BookId): (r: Option<nat>)
    ensures r.Some? ==> r.value < |rows| && Matches(rows[r.value], user, book)
    ensures r.Some? ==> forall j :: 0 <= j < r.value ==> !Matches(rows[j], user, book)
    ensures r.None? <==> !HasRow(rows, user, book)
    decreases |rows|
  {
    if |rows| == 0 then None
    else if Matches(rows[0], user, book) then Some(0)
    else
      match FindRow(rows[1..], user, book)
      case None =>
        HasRowCons(rows, user, book);
        None
      case Some(i) =>
        assert rows[1..][i] == rows[i + 1];
        assert forall j :: 1 <= j < i + 1 ==> rows[j] == rows[1..][j - 1];
        Some(i + 1)
  }

  /** The result of a table operation: what it reports and the table after it. */
  datatype TableStep = TableStep(outcome: Outcome, rows: seq<Contributor>)

  /**
   * `add_contributor` after the owner check: refuse an existing (user, book)
   * row, otherwise append one row.  `role` is `Roles(int(form.role.data))`;
   * None stands for the ValueError that call raises on a non-member.
   */
  function Add(rows: seq<Contributor>, book: BookId, user: UserId, role: Option<Role>,
               formValid: bool): (r: TableStep)
    ensures r.outcome == AlreadyExists <==> formValid && HasRow(rows, user, book)
    ensures r.outcome == Ok <==> formValid && !HasRow(rows, user, book) && role.Some?
    ensures r.outcome == FormRejected <==> !formValid
    ensures r.outcome == Unhandled <==> formValid && !HasRow(rows, user, book) && role.None?
    ensures r.outcome != Ok ==> r.rows == rows
    ensures r.outcome == Ok ==>
      |r.rows| == |rows| + 1 && r.rows[..|rows|] == rows &&
      r.rows[|rows|] == Contributor(user, book, role.value)
  {
    if !formValid then TableStep(FormRejected, rows)
    else if FindRow(rows, user, book).Some? then TableStep(AlreadyExists, rows)
    else if role.None? then TableStep(Unhandled, rows)
    else TableStep(Ok, rows + [Contributor(user, book, role.value)])
  }

  /**
   * `delete_contributor` after the owner check: report a missing row,
   * otherwise remove the row `.first()` found.  `user` is
   * `int(form.user_id.data)`; None stands for the ValueError that call raises
   * on a non-numeric id, before the lookup.
   */
  function Delete(rows: seq<Contributor>, book: BookId, user: Option<UserId>, formValid: bool)
    : (r: TableStep)
    ensures r.outcome == FormRejected <==> !formValid
    ensures r.outcome == Unhandled <==> formValid && user.None?
    ensures r.outcome == DoesNotExist <==>
            formValid && user.Some? && !HasRow(rows, user.value, book)
    ensures r.outcome == Ok <==> formValid && user.Some? && HasRow(rows, user.value, book)
    ensures r.outcome != Ok ==> r.rows == rows
    ensures r.outcome == Ok ==>
      exists i :: 0 <= i < |rows| && Matches(rows[i], user.value, book) &&
                  r.rows == rows[..i] + rows[i + 1..]
  {
    if !formValid then TableStep(FormRejected, rows)
    else if user.None? then TableStep(Unhandled, rows)
    else
      match FindRow(rows, user.value, book)
      case None => TableStep(DoesNotExist, rows)
      case Some(i) => TableStep(Ok, rows[..i] + rows[i + 1..])
  }

  /**
   * `edit_contributor_role` after the owner check: report a missing row,
   * otherwise set the role of the row `.first()` found.  `user` is decoded as
   * in `Delete`, before the lookup; `role` as in `Add`, after it.
   */
  function EditRole(rows: seq<Contributor>, book: BookId, user: Option<UserId>,
                    role: Option<Role>, formValid: bool): (r: TableStep)
    ensures r.outcome == FormRejected <==> !formValid
    ensures r.outcome == DoesNotExist <==>
            formValid && user.Some? && !HasRow(rows, user.value, book)
    ensures r.outcome == Ok <==>
            formValid && user.Some? && HasRow(rows, user.value, book) && role.Some?
    ensures r.outcome == Unhandled <==>
            formValid && (user.None? || (HasRow(rows, user.value, book) && role.None?))
    ensures r.outcome != Ok ==> r.rows == rows
    ensures r.outcome == Ok ==>
      |r.rows| == |rows| &&
      (forall j :: 0 <= j < |rows| ==>
         r.rows[j].user == rows[j].user && r.rows[j].book == rows[j].book) &&
      (forall j :: 0 <= j < |rows| && !Matches(rows[j], user.value, book) ==>
         r.rows[j] == rows[j]) &&
      (exists i :: 0 <= i < |rows| && Matches(rows[i], user.value, book) &&
                   r.rows[i].role == role.value)
  {
    if !formValid then TableStep(FormRejected, rows)
    else if user.None? then TableStep(Unhandled, rows)
    else
      match FindRow(rows, user.value, book)
      case None => TableStep(DoesNotExist, rows)
      case Some(i) =>
        if role.None? then TableStep(Unhandled, rows)
        else TableStep(Ok, rows[i := rows[i].(role := role.value)])
  }

  // ---------------------------------------------------------------------------
  // Counting rows

  lemma {:induction false} CountConcat(a: seq<Contributor>, b: seq<Contributor>, user: UserId,
                                       book: BookId)
    ensures Count(a + b, user, book) == Count(a, user, book) + Count(b, user, book)
    decreases |a|
  {
    if |a| > 0 {
      assert (a + b)[1..] == a[1..] + b;
      CountConcat(a[1..], b, user, book);
    } else {
      assert a + b == b;
    }
  }

  /** With one row per pair, each (user, book) has at most one row. */
  lemma {:induction false} CountAtMostOne(rows: seq<Contributor>, user: UserId, book: BookId)
    requires OneRowPerPair(rows)
    ensures Count(rows, user, book) <= 1
    decreases |rows|
  {
    if |rows| > 0 {
      var tail := rows[1..];
      assert OneRowPerPair(tail) by {
        forall i, j | 0 <= i < j < |tail|
          ensures !(tail[i].user == tail[j].user && tail[i].book == tail[j].book)
        {
          assert tail[i] == rows[i + 1] && tail[j] == rows[j + 1];
        }
      }
      CountAtMostOne(tail, user, book);
      forall k | 0 <= k < |tail|
        ensures !(Matches(rows[0], user, book) && Matches(tail[k], user, book))
      {
        assert tail[k] == rows[k + 1];
      }
    }
  }

  // ---------------------------------------------------------------------------
  // The table keeps one row per (user, book)

  lemma AddKeepsOneRowPerPair(rows: seq<Contributor>, book: BookId, user: UserId,
                              role: Option<Role>, formValid: bool)
    requires OneRowPerPair(rows)
    ensures OneRowPerPair(Add(rows, book, user, role, formValid).rows)
  {
    var r := Add(rows, book, user, role, formValid);
    if r.outcome == Ok {
      forall i, j | 0 <= i < j < |r.rows|
        ensures !(r.rows[i].user == r.rows[j].user && r.rows[i].book == r.rows[j].book)
      {
        if j == |rows| {
          assert r.rows[i] == rows[i];
          assert !Matches(rows[i], user, book);
        } else {
          assert r.rows[i] == rows[i] && r.rows[j] == rows[j];
        }
      }
    }
  }

  /**
   * A successful add leaves exactly one row for the pair, and a second add of
   * the same user is refused with the count still at one.
   */
  lemma AddTwiceRefused(rows: seq<Contributor>, book: BookId, user: UserId, role: Option<Role>,
                        role2: Option<Role>)
    requires Add(rows, book, user, role, true).outcome == Ok
    ensures Count(Add(rows, book, user, role, true).rows, user, book) == 1
    ensures Add(Add(rows, book, user, role, true).rows, book, user, role2, true)
            == TableStep(AlreadyExists, Add(rows, book, user, role, true).rows)
  {
    var after := Add(rows, book, user, role, true).rows;
    assert after == rows + [Contributor(user, book, role.value)];
    CountConcat(rows, [Contributor(user, book, role.value)], user, book);
  }

  lemma DeleteKeepsOneRowPerPair(rows: seq<Contributor>, book: BookId, user: Option<UserId>,
                                 formValid: bool)
    requires OneRowPerPair(rows)
    ensures OneRowPerPair(Delete(rows, book, user, formValid).rows)
  {
    var r := Delete(rows, book, user, formValid);
    if r.outcome == Ok {
      var i := FindRow(rows, user.value, book).value;
      assert r.rows == rows[..i] + rows[i + 1..];
      forall a, b | 0 <= a < b < |r.rows|
        ensures !(r.rows[a].user == r.rows[b].user && r.rows[a].book == r.rows[b].book)
      {
        var a' := if a < i then a else a + 1;
        var b' := if b < i then b else b + 1;
        assert r.rows[a] == rows[a'] && r.rows[b] == rows[b'];
      }
    }
  }

  /**
   * On a table with one row per pair, a successful delete leaves no row for
   * the pair, so deleting the same contributor again reports DoesNotExist.
   */
  lemma DeleteTwiceDoesNotExist(rows: seq<Contributor>, book: BookId, user: UserId)
    requires OneRowPerPair(rows)
    requires Delete(rows, book, Some(user), true).outcome == Ok
    ensures !HasRow(Delete(rows, book, Some(user), true).rows, user, book)
    ensures Delete(Delete(rows, book, Some(user), true).rows, book, Some(user), true).outcome
            == DoesNotExist
  {
    var i := FindRow(rows, user, book).value;
    var after := rows[..i] + rows[i + 1..];
    assert rows == rows[..i] + ([rows[i]] + rows[i + 1..]);
    CountConcat(rows[..i], [rows[i]] + rows[i + 1..], user, book);
    CountConcat([rows[i]], rows[i + 1..], user, book);
    CountConcat(rows[..i], rows[i + 1..], user, book);
    CountAtMostOne(rows, user, book);
    assert Count([rows[i]], user, book) == 1;
  }

  lemma EditRoleKeepsOneRowPerPair(rows: seq<Contributor>, book: BookId, user: Option<UserId>,
                                   role: Option<Role>, formValid: bool)
    requires OneRowPerPair(rows)
    ensures OneRowPerPair(EditRole(rows, book, user, role, formValid).rows)
  {
  }

  /**
   * Setting a role and then setting the same role again succeeds both times
   * and the second time changes nothing.
   */
  lemma EditRoleIdempotent(rows: seq<Contributor>, book: BookId, user: UserId, role: Role)
    requires HasRow(rows, user, book)
    ensures EditRole(rows, book, Some(user), Some(role), true).outcome == Ok
    ensures var once := EditRole(rows, book, Some(user), Some(role), true).rows;
            EditRole(once, book, Some(user), Some(role), true) == TableStep(Ok, once)
  {
    var i := FindRow(rows, user, book).value;
    var once := rows[i := rows[i].(role := role)];
    assert Matches(once[i], user, book);
    var k := FindRow(once, user, book).value;
    assert forall j :: 0 <= j < i ==> once[j] == rows[j];
    assert k == i;
    assert once[i := once[i].(role := role)] == once;
  }
}

=== FILE: fixture.dfy ===
/**
 * The `create_test_book` fixture: a book with one version whose root has two
 * children labelled alike, a leaf holding section -> interpretation -> comment
 * and a non-leaf holding one leaf sub-collection, with the book and the four
 * collections bound to an editor and a moderator access group.
 */
module Fixture {
  import opened Records
  import CollectionTree
  import NestedDeletion

  /** The ids of the rows the fixture inserts. */
  datatype FixtureIds = FixtureIds(book: BookId, version: VersionId, root: CollectionId,
                                   leaf: CollectionId, section: SectionId,
                                   interpretation: InterpretationId, comment: CommentId,
                                   branch: CollectionId, sub: CollectionId,
                                   editorGroup: GroupId, moderatorGroup: GroupId)

  /** The ids the store hands out from `next` on, in the fixture's insertion order. */
  function IdsFrom(next: nat): (f: FixtureIds)
    ensures f.book == next && f.moderatorGroup == next + 10
  {
    FixtureIds(next, next + 1, next + 2, next + 3, next + 4, next + 5, next + 6, next + 7,
               next + 8, next + 9, next + 10)
  }

  function Digit(d: nat): (c: char)
    requires d < 10
    ensures '0' <= c <= '9' && c as int - '0' as int == d
  {
    "0123456789"[d]
  }

  /** The number a string of decimal digits denotes. */
  function DigitsValue(s: string): (n: nat)
    requires forall i :: 0 <= i < |s| ==> '0' <= s[i] <= '9'
  {
    if |s| == 0 then 0
    else DigitsValue(s[..|s| - 1]) * 10 + (s[|s| - 1] as int - '0' as int)
  }

  /** The decimal digits of `n`, without leading zeros. */
  function NatString(n: nat): (s: string)
    ensures |s| > 0 && (forall i :: 0 <= i < |s| ==> '0' <= s[i] <= '9')
    ensures DigitsValue(s) == n
    ensures |s| > 1 ==> s[0] != '0'
    decreases n
  {
    if n < 10 then [Digit(n)]
    else
      var prefix := NatString(n / 10);
      var s := prefix + [Digit(n % 10)];
      assert s[..|s| - 1] == prefix;
      s
  }

  /** `n` formatted as an f-string formats an int. */
  function DecimalString(n: int): (s: string)
    ensures |s| > 0
    ensures s[0] == '-' <==> n < 0
    ensures var digits := if n < 0 then s[1..] else s;
      (forall i :: 0 <= i < |digits| ==> '0' <= digits[i] <= '9') &&
      DigitsValue(digits) == (if n < 0 then -n else n)
  {
    if n < 0 then "-" + NatString(-n) else NatString(n)
  }

  /** Every id of `ids` bound to every group of `gs`. */
  function Bindings(ids: set<nat>, gs: seq<GroupId>): (r: set<(nat, GroupId)>)
    ensures forall p :: p in r <==> p.0 in ids && p.1 in gs
  {
    set c, g | c in ids && g in gs :: (c, g)
  }

  /** The labels and texts the fixture gives its rows. */
  datatype Labels = Labels(book: string, about: string, collection: string, sub: string,
                           section: string, interpretation: string, comment: string)

  /** The labels for entity id `e`; both root children get `collection`. */
  function LabelsFor(e: int): (l: Labels)
    ensures l.book == "Book " + DecimalString(e) && l.about == "About " + DecimalString(e)
    ensures l.collection == "Collection " + DecimalString(e)
    ensures l.sub == "subCollection " + DecimalString(e)
    ensures l.section == "Section " + DecimalString(e)
    ensures l.interpretation == "Interpretation Text " + DecimalString(e)
    ensures l.comment == "Comment " + DecimalString(e)
  {
    var tag := DecimalString(e);
    Labels("Book " + tag, "About " + tag, "Collection " + tag, "subCollection " + tag,
           "Section " + tag, "Interpretation Text " + tag, "Comment " + tag)
  }

  /** The store after `create_test_book(owner, e)`, with `l == LabelsFor(e)`. */
  function TestBook(db: Db, owner: UserId, l: Labels): (r: Db)
    ensures var f := IdsFrom(db.nextId);
      && r.nextId == db.nextId + 11
      && r.books.Keys == db.books.Keys + {f.book}
      && r.collections.Keys == db.collections.Keys + {f.root, f.leaf, f.branch, f.sub}
      && r.contributors == db.contributors
  {
    var f := IdsFrom(db.nextId);
    var groups := [f.editorGroup, f.moderatorGroup];
    db.(
      books := db.books[f.book := Book(l.book, l.about, owner, false, [f.version])],
      versions := db.versions[f.version := Version("1.0.0", false, Some(f.root))],
      collections := db.collections
        [f.root := Collection("Root", "", None, false, true, false)]
        [f.leaf := Collection(l.collection, "", Some(f.root), true, false, false)]
        [f.branch := Collection(l.collection, "", Some(f.root), false, false, false)]
        [f.sub := Collection(l.sub, "", Some(f.branch), true, false, false)],
      sections := db.sections[f.section := Section(l.section, owner, f.leaf, false)],
      interpretations := db.interpretations
        [f.interpretation := Interpretation(l.interpretation, owner, f.section, false)],
      comments := db.comments
        [f.comment := Comment(l.comment, owner, f.interpretation, None, false)],
      accessGroups := db.accessGroups
        [f.editorGroup := AccessGroup(f.book, EditorGroup)]
        [f.moderatorGroup := AccessGroup(f.book, ModeratorGroup)],
      bookAccess := db.bookAccess + Bindings({f.book}, groups),
      collectionAccess := db.collectionAccess + Bindings({f.root, f.leaf, f.branch, f.sub}, groups),
      nextId := db.nextId + 11)
  }

  /** A store whose every table is the fixture's update of the one in `db` is the fixture's store. */
  lemma TestBookFromTables(db: Db, owner: UserId, l: Labels, r: Db)
    requires var f := IdsFrom(db.nextId);
      && r.books == db.books[f.book := Book(l.book, l.about, owner, false, [f.version])]
      && r.versions == db.versions[f.version := Version("1.0.0", false, Some(f.root))]
      && r.collections == db.collections
           [f.root := Collection("Root", "", None, false, true, false)]
           [f.leaf := Collection(l.collection, "", Some(f.root), true, false, false)]
           [f.branch := Collection(l.collection, "", Some(f.root), false, false, false)]
           [f.sub := Collection(l.sub, "", Some(f.branch), true, false, false)]
      && r.sections == db.sections[f.section := Section(l.section, owner, f.leaf, false)]
      && r.interpretations == db.interpretations
           [f.interpretation := Interpretation(l.interpretation, owner, f.section, false)]
      && r.comments == db.comments
           [f.comment := Comment(l.comment, owner, f.interpretation, None, false)]
      && r.contributors == db.contributors
      && r.accessGroups == db.accessGroups
           [f.editorGroup := AccessGroup(f.book, EditorGroup)]
           [f.moderatorGroup := AccessGroup(f.book, ModeratorGroup)]
      && r.bookAccess == db.bookAccess + Bindings({f.book}, [f.editorGroup, f.moderatorGroup])
      && r.collectionAccess == db.collectionAccess +
           Bindings({f.root, f.leaf, f.branch, f.sub}, [f.editorGroup, f.moderatorGroup])
      && r.nextId == db.nextId + 11
    ensures r == TestBook(db, owner, l)
  {
  }

  /** The fixture only adds rows that reference rows that exist, under fresh ids. */
  lemma TestBookWellFormed(db: Db, owner: UserId, l: Labels)
    requires WellFormed(db)
    ensures WellFormed(TestBook(db, owner, l))
  {
    TestBookBooksWellFormed(db, owner, l);
    TestBookVersionsWellFormed(db, owner, l);
    TestBookCollectionsWellFormed(db, owner, l);
    TestBookSectionsWellFormed(db, owner, l);
    TestBookInterpretationsWellFormed(db, owner, l);
    TestBookCommentsWellFormed(db, owner, l);
    TestBookGroupsWellFormed(db, owner, l);
    TestBookBindingsWellFormed(db, owner, l);
  }

  // One lemma per clause of WellFormed, each assuming only the clauses of the
  // store before that it needs.

  lemma TestBookBooksWellFormed(db: Db, owner: UserId, l: Labels)
    requires forall k :: k in db.books ==>
      k < db.nextId && forall v :: v in db.books[k].versions ==> v in db.versions
    ensures var r := TestBook(db, owner, l);
      forall k :: k in r.books ==>
        k < r.nextId && forall v :: v in r.books[k].versions ==> v in r.versions
  {
  }

  lemma TestBookVersionsWellFormed(db: Db, owner: UserId, l: Labels)
    requires forall k :: k in db.versions ==>
      k < db.nextId && (db.versions[k].root.Some? ==> db.versions[k].root.value in db.collections)
    ensures var r := TestBook(db, owner, l);
      forall k :: k in r.versions ==>
        k < r.nextId && (r.versions[k].root.Some? ==> r.versions[k].root.value in r.collections)
  {
  }

  lemma TestBookCollectionsWellFormed(db: Db, owner: UserId, l: Labels)
    requires forall k :: k in db.collections ==>
      k < db.nextId &&
      (db.collections[k].parent.Some? ==> db.collections[k].parent.value in db.collections)
    ensures var r := TestBook(db, owner, l);
      forall k :: k in r.collections ==>
        k < r.nextId &&
        (r.collections[k].parent.Some? ==> r.collections[k].parent.value in r.collections)
  {
    var r := TestBook(db, owner, l);
    var f := IdsFrom(db.nextId);
    forall k | k in r.collections
      ensures k < r.nextId &&
              (r.collections[k].parent.Some? ==> r.collections[k].parent.value in r.collections)
    {
      if k !in {f.root, f.leaf, f.branch, f.sub} {
        assert r.collections[k] == db.collections[k];
      }
    }
  }

  lemma TestBookSectionsWellFormed(db: Db, owner: UserId, l: Labels)
    requires forall k :: k in db.sections ==>
      k < db.nextId && db.sections[k].collection in db.collections
    ensures var r := TestBook(db, owner, l);
      forall k :: k in r.sections ==> k < r.nextId && r.sections[k].collection in r.collections
  {
  }

  lemma TestBookInterpretationsWellFormed(db: Db, owner: UserId, l: Labels)
    requires forall k :: k in db.interpretations ==>
      k < db.nextId && db.interpretations[k].section in db.sections
    ensures var r := TestBook(db, owner, l);
      forall k :: k in r.interpretations ==>
        k < r.nextId && r.interpretations[k].section in r.sections
  {
  }

  lemma TestBookCommentsWellFormed(db: Db, owner: UserId, l: Labels)
    requires forall k :: k in db.comments ==>
      k < db.nextId && db.comments[k].interpretation in db.interpretations &&
      (db.comments[k].parent.Some? ==> db.comments[k].parent.value in db.comments)
    ensures var r := TestBook(db, owner, l);
      forall k :: k in r.comments ==>
        k < r.nextId && r.comments[k].interpretation in r.interpretations &&
        (r.comments[k].parent.Some? ==> r.comments[k].parent.value in r.comments)
  {
  }

  lemma TestBookGroupsWellFormed(db: Db, owner: UserId, l: Labels)
    requires forall k :: k in db.accessGroups ==> k < db.nextId && db.accessGroups[k].book in db.books
    ensures var r := TestBook(db, owner, l);
      forall k :: k in r.accessGroups ==> k < r.nextId && r.accessGroups[k].book in r.books
  {
  }

  lemma TestBookBindingsWellFormed(db: Db, owner: UserId, l: Labels)
    requires forall p :: p in db.bookAccess ==> p.0 in db.books && p.1 in db.accessGroups
    requires forall p :: p in db.collectionAccess ==> p.0 in db.collections && p.1 in db.accessGroups
    ensures var r := TestBook(db, owner, l);
      && (forall p :: p in r.bookAccess ==> p.0 in r.books && p.1 in r.accessGroups)
      && (forall p :: p in r.collectionAccess ==> p.0 in r.collections && p.1 in r.accessGroups)
  {
  }

  /** Every reference held by an existing row is below the id counter. */
  ghost predicate PointsBelow(db: Db)
  {
    && (forall c :: c in db.collections && db.collections[c].parent.Some? ==>
          db.collections[c].parent.value < db.nextId)
    && (forall s :: s in db.sections ==> db.sections[s].collection < db.nextId)
    && (forall i :: i in db.interpretations ==> db.interpretations[i].section < db.nextId)
    && (forall k :: k in db.comments ==> db.comments[k].interpretation < db.nextId)
    && (forall p :: p in db.bookAccess ==> p.0 < db.nextId)
    && (forall p :: p in db.collectionAccess ==> p.0 < db.nextId)
  }

  /**
   * The tree the fixture builds: the root's children are exactly the leaf and
   * the branch, the branch's only child is the sub-collection, and the leaf
   * and the sub-collection have none.
   */
  lemma TestBookTree(db: Db, owner: UserId, l: Labels)
    requires PointsBelow(db)
    ensures var r := TestBook(db, owner, l); var f := IdsFrom(db.nextId);
      && r.collections[f.root].isRoot && r.collections[f.root].parent.None?
      && r.collections[f.leaf].isLeaf && r.collections[f.sub].isLeaf
      && !r.collections[f.branch].isLeaf
      && (forall c :: c in r.collections && r.collections[c].parent == Some(f.root) <==>
                      c == f.leaf || c == f.branch)
      && (forall c :: c in r.collections && r.collections[c].parent == Some(f.branch) <==>
                      c == f.sub)
      && (forall c :: c in r.collections ==>
            r.collections[c].parent != Some(f.leaf) && r.collections[c].parent != Some(f.sub))
  {
  }

  /**
   * The leaf's one section carries one interpretation with one comment; no
   * other collection of the fixture has a section.
   */
  lemma TestBookContent(db: Db, owner: UserId, l: Labels)
    requires PointsBelow(db)
    ensures var r := TestBook(db, owner, l); var f := IdsFrom(db.nextId);
      && (forall s :: s in r.sections && r.sections[s].collection in {f.root, f.leaf, f.branch, f.sub}
                     <==> s == f.section)
      && r.sections[f.section].collection == f.leaf
      && (forall i :: i in r.interpretations && r.interpretations[i].section == f.section <==>
                      i == f.interpretation)
      && (forall k :: k in r.comments && r.comments[k].interpretation == f.interpretation <==>
                      k == f.comment)
  {
    TestBookSections(db, owner, l);
    TestBookComments(db, owner, l);
  }

  lemma TestBookSections(db: Db, owner: UserId, l: Labels)
    requires PointsBelow(db)
    ensures var r := TestBook(db, owner, l); var f := IdsFrom(db.nextId);
      && (forall s :: s in r.sections && r.sections[s].collection in {f.root, f.leaf, f.branch, f.sub}
                     <==> s == f.section)
      && r.sections[f.section].collection == f.leaf
  {
  }

  lemma TestBookComments(db: Db, owner: UserId, l: Labels)
    requires PointsBelow(db)
    ensures var r := TestBook(db, owner, l); var f := IdsFrom(db.nextId);
      && (forall i :: i in r.interpretations && r.interpretations[i].section == f.section <==>
                      i == f.interpretation)
      && (forall k :: k in r.comments && r.comments[k].interpretation == f.interpretation <==>
                      k == f.comment)
  {
  }

  /**
   * The fixture inserts its two root children under the same label, so the
   * store it leaves breaks sibling-label uniqueness: that rule is kept by
   * the create and edit views, not by the store.
   */
  lemma TestBookDuplicatesSiblingLabel(db: Db, owner: UserId, l: Labels)
    ensures var r := TestBook(db, owner, l); var f := IdsFrom(db.nextId);
      && CollectionTree.LabelTaken(r.collections, f.root, l.collection, None)
      && !CollectionTree.SiblingLabelsUnique(r.collections)
  {
    var r := TestBook(db, owner, l);
    var f := IdsFrom(db.nextId);
    assert r.collections[f.leaf].parent == r.collections[f.branch].parent == Some(f.root);
    assert r.collections[f.leaf].title == r.collections[f.branch].title;
  }

  /**
   * The book and each of the four collections are bound to exactly the
   * fixture's editor group and moderator group, which belong to the book.
   */
  lemma TestBookAccessGroups(db: Db, owner: UserId, l: Labels)
    requires PointsBelow(db)
    ensures var r := TestBook(db, owner, l); var f := IdsFrom(db.nextId);
      && r.accessGroups[f.editorGroup] == AccessGroup(f.book, EditorGroup)
      && r.accessGroups[f.moderatorGroup] == AccessGroup(f.book, ModeratorGroup)
      && (forall g :: (f.book, g) in r.bookAccess <==> g == f.editorGroup || g == f.moderatorGroup)
      && (forall c, g :: c in {f.root, f.leaf, f.branch, f.sub} ==>
            ((c, g) in r.collectionAccess <==> g == f.editorGroup || g == f.moderatorGroup))
  {
  }

  /**
   * Right after the fixture the book is not deleted, yet the book check
   * fails for either flag: for "deleted" because the version is live, for
   * "not deleted" because the flag is not passed on and the root is checked
   * for "deleted".
   */
  lemma TestBookFailsBookCheck(db: Db, owner: UserId, l: Labels, flag: bool)
    ensures var r := TestBook(db, owner, l); var f := IdsFrom(db.nextId);
      !r.books[f.book].isDeleted && !NestedDeletion.BookCheck(r, f.book, flag)
  {
    var r := TestBook(db, owner, l);
    var f := IdsFrom(db.nextId);
    assert f.version in r.books[f.book].versions;
  }

  /**
   * A book whose one live version has a live root whose children are live and
   * hold at most one live section with at most one live interpretation with
   * at most one live comment passes the forwarded check for "not deleted".
   */
  lemma LiveTreePassesForwardedCheck(r: Db, f: FixtureIds)
    requires f.book in r.books && r.books[f.book].versions == [f.version]
    requires f.version in r.versions && !r.versions[f.version].isDeleted
    requires r.versions[f.version].root == Some(f.root)
    requires f.root in r.collections && !r.collections[f.root].isDeleted
    requires forall c :: c in r.collections && r.collections[c].parent == Some(f.root) <==>
                         c == f.leaf || c == f.branch
    requires !r.collections[f.leaf].isDeleted && !r.collections[f.branch].isDeleted
    requires forall s :: s in r.sections && r.sections[s].collection in {f.root, f.leaf, f.branch, f.sub}
                         <==> s == f.section
    requires !r.sections[f.section].isDeleted
    requires forall i :: i in r.interpretations && r.interpretations[i].section == f.section <==>
                         i == f.interpretation
    requires !r.interpretations[f.interpretation].isDeleted
    requires forall k :: k in r.comments && r.comments[k].interpretation == f.interpretation <==>
                         k == f.comment
    requires !r.comments[f.comment].isDeleted
    ensures NestedDeletion.ForwardedBookCheck(r, f.book, false)
  {
    forall c | c in r.collections && r.collections[c].parent == Some(f.root)
      ensures NestedDeletion.CollectionCheck(r, c, false)
    {
      forall s | s in r.sections && r.sections[s].collection == c
        ensures !r.sections[s].isDeleted && NestedDeletion.SectionCheck(r, s, false)
      {
        assert s == f.section;
      }
    }
  }

  /** With the flag passed on, the fixture's fresh book passes the check for "not deleted". */
  lemma TestBookPassesForwardedCheck(db: Db, owner: UserId, l: Labels)
    requires PointsBelow(db)
    ensures NestedDeletion.ForwardedBookCheck(TestBook(db, owner, l), IdsFrom(db.nextId).book, false)
  {
    TestBookTree(db, owner, l);
    TestBookContent(db, owner, l);
    var r := TestBook(db, owner, l);
    var f := IdsFrom(db.nextId);
    assert r.books[f.book].versions == [f.version];
    LiveTreePassesForwardedCheck(r, f);
  }

  /** Soft-deleting the fixture's book the way the helpers read it passes the book check. */
  lemma TestBookDeletedPassesBookCheck(db: Db, owner: UserId, l: Labels)
    requires WellFormed(db)
    ensures var r := TestBook(db, owner, l); var b := IdsFrom(db.nextId).book;
      NestedDeletion.BookCheck(NestedDeletion.MarkBookDeleted(r, b), b, true)
  {
    var r := TestBook(db, owner, l);
    TestBookWellFormed(db, owner, l);
    NestedDeletion.MarkBookDeletedPassesBookCheck(r, IdsFrom(db.nextId).book);
  }
}

=== FILE: store.dfy ===
/**
 * The store the views write to, as an object whose tables are fields.  Each
 * method runs a view's guards in the view's order and then updates the
 * tables in place; its contract ties the outcome and the new tables to the
 * view's specification in CollectionTree, ContributorTable, NestedDeletion or
 * Fixture, where the properties of the views are proved.
 */
module Store {
  import opened Records
  import CollectionTree
  import ContributorTable
  import NestedDeletion
  import Fixture

  class BookStore {
    var books: map<BookId, Book>
    var versions: map<VersionId, Version>
    var collections: map<CollectionId, Collection>
    var sections: map<SectionId, Section>
    var interpretations: map<InterpretationId, Interpretation>
    var comments: map<CommentId, Comment>
    var contributors: seq<Contributor>
    var accessGroups: map<GroupId, AccessGroup>
    var bookAccess: set<(BookId, GroupId)>
    var collectionAccess: set<(CollectionId, GroupId)>
    var nextId: nat

    /** The tables as one value. */
    function State(): (db: Db)
      reads this
    {
      Db(books, versions, collections, sections, interpretations, comments, contributors,
         accessGroups, bookAccess, collectionAccess, nextId)
    }

    /** References resolve, ids are fresh, and there is one contributor row per (user, book). */
    ghost predicate Valid()
      reads this
    {
      WellFormed(State()) && ContributorTable.OneRowPerPair(contributors)
    }

    /** An empty store. */
    constructor()
      ensures Valid()
      ensures State() == Db(map[], map[], map[], map[], map[], map[], [], map[], {}, {}, 0)
    {
      books, versions, collections := map[], map[], map[];
      sections, interpretations, comments := map[], map[], map[];
      contributors, accessGroups, bookAccess, collectionAccess := [], map[], {}, {};
      nextId := 0;
    }

    // -------------------------------------------------------------------------
    // app/views/book.py

    /** `create`: save the book, then its version "1.0.0", then that version's root. */
    method CreateBook(caller: UserId, title: string, formValid: bool) returns (out: Outcome)
      requires Valid()
      modifies this`books, this`versions, this`collections, this`nextId
      ensures Step(out, State()) == CollectionTree.CreateBook(old(State()), caller, title, formValid)
      ensures Valid()
    {
      if !formValid {
        return FormRejected;
      }
      ghost var before := State();
      // Each save takes the next id; the book's version list and the
      // version's root are the relationships the later saves fill in.
      var b, v, root := nextId, nextId + 1, nextId + 2;
      nextId := nextId + 3;
      books := books[b := Book(title, "", caller, false, [v])];
      versions := versions[v := Version("1.0.0", false, Some(root))];
      collections := collections[root := Collection("Root Collection", "", None, false, true, false)];
      out := Ok;
      ghost var spec := CollectionTree.CreateBook(before, caller, title, formValid).db;
      SameTables(State(), spec);
      CollectionTree.CreateBookKeepsWellFormed(before, caller, title, formValid);
    }

    /** `collection_create` and `create_sub_collection` (`parent` is the URL's collection). */
    method CreateCollection(caller: UserId, bookId: BookId, parent: Option<CollectionId>,
                            title: string, about: string, formValid: bool)
      returns (out: Outcome)
      requires Valid()
      modifies this`collections, this`nextId
      ensures Step(out, State()) ==
              CollectionTree.CreateCollection(old(State()), caller, bookId, parent, title, about,
                                              formValid)
      ensures Valid()
    {
      if !(bookId in books && books[bookId].owner == caller && !books[bookId].isDeleted) {
        return NotOwner;
      }
      if parent.Some? {
        if !(parent.value in collections && !collections[parent.value].isDeleted) {
          return CollectionNotFound;
        }
        if collections[parent.value].isLeaf {
          return LeafParent;
        }
      }
      if !formValid {
        return FormRejected;
      }
      out := CreateValidatedCollection(caller, bookId, parent, title, about);
    }

    /** The part of `collection_create` that runs once the guards and the form have passed. */
    method CreateValidatedCollection(caller: UserId, bookId: BookId, parent: Option<CollectionId>,
                                     title: string, about: string)
      returns (out: Outcome)
      requires Valid() && CollectionTree.CreateGuardsPass(State(), caller, bookId, parent)
      modifies this`collections, this`nextId
      ensures Step(out, State()) ==
              CollectionTree.CreateCollection(old(State()), caller, bookId, parent, title, about, true)
      ensures Valid()
    {
      CollectionTree.CreateCollectionKeepsWellFormed(State(), caller, bookId, parent, title, about,
                                                     true);
      var lastRoot := CollectionTree.LastRoot(State(), bookId);
      var scope: CollectionId;
      if parent.Some? {
        scope := parent.value;
      } else if lastRoot.Some? {
        scope := lastRoot.value;
      } else {
        return Unhandled;
      }
      if CollectionTree.LabelTaken(collections, scope, title, None) {
        return DuplicateLabel;
      }
      if lastRoot.None? {
        return Unhandled;
      }
      ghost var spec := CollectionTree.CreateCollection(State(), caller, bookId, parent, title, about,
                                                        true).db;
      var c := nextId;
      nextId := nextId + 1;
      collections := collections[c := Collection(title, about, Some(scope), parent.Some?, false, false)];
      out := Ok;
      SameTables(State(), spec);
    }

    /** `collection_edit`, of the sub-collection when `sub` is given. */
    method EditCollection(caller: UserId, bookId: BookId, collectionId: CollectionId,
                          sub: Option<CollectionId>, title: string, about: string,
                          formValid: bool) returns (out: Outcome)
      requires Valid()
      modifies this`collections
      ensures Step(out, State()) ==
              CollectionTree.EditCollection(old(State()), caller, bookId, collectionId, sub, title,
                                            about, formValid)
      ensures Valid()
    {
      if !(bookId in books && books[bookId].owner == caller && !books[bookId].isDeleted) {
        return NotOwner;
      }
      if !(collectionId in collections && !collections[collectionId].isDeleted) {
        return CollectionNotFound;
      }
      if sub.Some? && !(sub.value in collections && !collections[sub.value].isDeleted) {
        return SubCollectionNotFound;
      }
      if !formValid {
        return FormRejected;
      }
      out := EditValidatedCollection(caller, bookId, collectionId, sub, title, about);
    }

    /** The part of `collection_edit` that runs once the guards and the form have passed. */
    method EditValidatedCollection(caller: UserId, bookId: BookId, collectionId: CollectionId,
                                   sub: Option<CollectionId>, title: string, about: string)
      returns (out: Outcome)
      requires Valid() && CollectionTree.OwnsLiveBook(State(), caller, bookId)
      requires CollectionTree.TargetsLive(State(), collectionId, sub)
      modifies this`collections
      ensures Step(out, State()) ==
              CollectionTree.EditCollection(old(State()), caller, bookId, collectionId, sub, title,
                                            about, true)
      ensures Valid()
    {
      CollectionTree.EditCollectionKeepsWellFormed(State(), caller, bookId, collectionId, sub, title,
                                                   about, true);
      var target := if sub.Some? then sub.value else collectionId;
      var scope: CollectionId;
      if sub.Some? {
        scope := collectionId;
      } else {
        var p := collections[collectionId].parent;
        if p.None? || p.value !in collections {
          return Unhandled;
        }
        scope := p.value;
      }
      if CollectionTree.LabelTaken(collections, scope, title, Some(target)) {
        return DuplicateLabel;
      }
      ghost var spec := CollectionTree.EditCollection(State(), caller, bookId, collectionId, sub, title,
                                                      about, true).db;
      ApplyEdit(target, title, about);
      out := Ok;
      SameTables(State(), spec);
    }

    /** Overwrite the label and the description of a collection with the non-empty form fields. */
    method ApplyEdit(target: CollectionId, title: string, about: string)
      requires target in collections
      modifies this`collections
      ensures collections ==
              old(collections)[target := CollectionTree.Edited(old(collections)[target], title, about)]
    {
      var edited := collections[target];
      if title != "" {
        edited := edited.(title := title);
      }
      if about != "" {
        edited := edited.(about := about);
      }
      collections := collections[target := edited];
    }

    /** `collection_delete`, of the sub-collection when `sub` is given. */
    method DeleteCollection(caller: UserId, bookId: BookId, collectionId: CollectionId,
                            sub: Option<CollectionId>) returns (out: Outcome)
      requires Valid()
      modifies this`collections
      ensures Step(out, State()) ==
              CollectionTree.DeleteCollection(old(State()), caller, bookId, collectionId, sub)
      ensures Valid()
    {
      CollectionTree.DeleteCollectionKeepsWellFormed(State(), caller, bookId, collectionId, sub);
      if !(bookId in books && books[bookId].owner == caller) {
        return NotOwner;
      }
      if !(collectionId in collections && !collections[collectionId].isDeleted) {
        return CollectionNotFound;
      }
      var target := collectionId;
      if sub.Some? {
        if !(sub.value in collections && !collections[sub.value].isDeleted) {
          return SubCollectionNotFound;
        }
        target := sub.value;
      }
      ghost var spec := CollectionTree.DeleteCollection(State(), caller, bookId, collectionId, sub).db;
      collections := collections[target := collections[target].(isDeleted := true)];
      out := Ok;
      SameTables(State(), spec);
    }

    // -------------------------------------------------------------------------
    // app/views/book/settings.py (the owner check is the route decorator's)

    /** `add_contributor`. */
    method AddContributor(caller: UserId, bookId: BookId, user: UserId, role: Option<Role>,
                          formValid: bool) returns (out: Outcome)
      requires Valid() && CollectionTree.OwnsLiveBook(State(), caller, bookId)
      modifies this`contributors
      ensures ContributorTable.TableStep(out, contributors) ==
              ContributorTable.Add(old(contributors), bookId, user, role, formValid)
      ensures Valid()
    {
      ContributorTable.AddKeepsOneRowPerPair(contributors, bookId, user, role, formValid);
      if !formValid {
        return FormRejected;
      }
      if ContributorTable.FindRow(contributors, user, bookId).Some? {
        return AlreadyExists;
      }
      if role.None? {
        return Unhandled;
      }
      contributors := contributors + [Contributor(user, bookId, role.value)];
      out := Ok;
    }

    /** `delete_contributor`. */
    method DeleteContributor(caller: UserId, bookId: BookId, user: Option<UserId>,
                             formValid: bool) returns (out: Outcome)
      requires Valid() && CollectionTree.OwnsLiveBook(State(), caller, bookId)
      modifies this`contributors
      ensures ContributorTable.TableStep(out, contributors) ==
              ContributorTable.Delete(old(contributors), bookId, user, formValid)
      ensures Valid()
    {
      ContributorTable.DeleteKeepsOneRowPerPair(contributors, bookId, user, formValid);
      if !formValid {
        return FormRejected;
      }
      if user.None? {
        return Unhandled;
      }
      var found := ContributorTable.FindRow(contributors, user.value, bookId);
      if found.None? {
        return DoesNotExist;
      }
      var i := found.value;
      contributors := contributors[..i] + contributors[i + 1..];
      out := Ok;
    }

    /** `edit_contributor_role`. */
    method EditContributorRole(caller: UserId, bookId: BookId, user: Option<UserId>,
                               role: Option<Role>, formValid: bool) returns (out: Outcome)
      requires Valid() && CollectionTree.OwnsLiveBook(State(), caller, bookId)
      modifies this`contributors
      ensures ContributorTable.TableStep(out, contributors) ==
              ContributorTable.EditRole(old(contributors), bookId, user, role, formValid)
      ensures Valid()
    {
      ContributorTable.EditRoleKeepsOneRowPerPair(contributors, bookId, user, role, formValid);
      if !formValid {
        return FormRejected;
      }
      if user.None? {
        return Unhandled;
      }
      var found := ContributorTable.FindRow(contributors, user.value, bookId);
      if found.None? {
        return DoesNotExist;
      }
      if role.None? {
        return Unhandled;
      }
      var i := found.value;
      contributors := contributors[i := contributors[i].(role := role.value)];
      out := Ok;
    }

    // The copies of the three contributor views in app/views/book.py run the
    // owner check themselves before the same steps.

    /** `add_contributor` of app/views/book.py. */
    method OwnerAddContributor(caller: UserId, bookId: BookId, user: UserId, role: Option<Role>,
                               formValid: bool) returns (out: Outcome)
      requires Valid()
      modifies this`contributors
      ensures !CollectionTree.OwnsLiveBook(State(), caller, bookId) ==>
              out == NotOwner && contributors == old(contributors)
      ensures CollectionTree.OwnsLiveBook(State(), caller, bookId) ==>
              ContributorTable.TableStep(out, contributors) ==
              ContributorTable.Add(old(contributors), bookId, user, role, formValid)
      ensures Valid()
    {
      if !(bookId in books && books[bookId].owner == caller && !books[bookId].isDeleted) {
        return NotOwner;
      }
      out := AddContributor(caller, bookId, user, role, formValid);
    }

    /** `delete_contributor` of app/views/book.py. */
    method OwnerDeleteContributor(caller: UserId, bookId: BookId, user: Option<UserId>,
                                  formValid: bool)
      returns (out: Outcome)
      requires Valid()
      modifies this`contributors
      ensures !CollectionTree.OwnsLiveBook(State(), caller, bookId) ==>
              out == NotOwner && contributors == old(contributors)
      ensures CollectionTree.OwnsLiveBook(State(), caller, bookId) ==>
              ContributorTable.TableStep(out, contributors) ==
              ContributorTable.Delete(old(contributors), bookId, user, formValid)
      ensures Valid()
    {
      if !(bookId in books && books[bookId].owner == caller && !books[bookId].isDeleted) {
        return NotOwner;
      }
      out := DeleteContributor(caller, bookId, user, formValid);
    }

    /** `edit_contributor_role` of app/views/book.py. */
    method OwnerEditContributorRole(caller: UserId, bookId: BookId, user: Option<UserId>,
                                    role: Option<Role>, formValid: bool) returns (out: Outcome)
      requires Valid()
      modifies this`contributors
      ensures !CollectionTree.OwnsLiveBook(State(), caller, bookId) ==>
              out == NotOwner && contributors == old(contributors)
      ensures CollectionTree.OwnsLiveBook(State(), caller, bookId) ==>
              ContributorTable.TableStep(out, contributors) ==
              ContributorTable.EditRole(old(contributors), bookId, user, role, formValid)
      ensures Valid()
    {
      if !(bookId in books && books[bookId].owner == caller && !books[bookId].isDeleted) {
        return NotOwner;
      }
      out := EditContributorRole(caller, bookId, user, role, formValid);
    }

    // -------------------------------------------------------------------------
    // tests/utils.py

    /**
     * `create_test_book(owner, e)`: insert the book, its version, the root, the
     * leaf with its section, interpretation and comment, the second child
     * with its sub-collection, then the two access groups and their bindings.
     */
    method CreateTestBook(owner: UserId, e: int) returns (f: Fixture.FixtureIds)
      requires Valid()
      modifies this
      ensures f == Fixture.IdsFrom(old(nextId))
      ensures State() == Fixture.TestBook(old(State()), owner, Fixture.LabelsFor(e))
      ensures Valid()
    {
      ghost var before := State();
      var l := Fixture.LabelsFor(e);
      f := InsertTestRows(owner, l);
      BindTestGroups(f);
      Fixture.TestBookFromTables(before, owner, l, State());
      Fixture.TestBookWellFormed(before, owner, l);
    }

    /** The fixture's row inserts, each taking the next id. */
    method InsertTestRows(owner: UserId, l: Fixture.Labels) returns (f: Fixture.FixtureIds)
      modifies this`books, this`versions, this`collections, this`sections,
               this`interpretations, this`comments, this`nextId
      ensures f == Fixture.IdsFrom(old(nextId)) && nextId == old(nextId) + 9
      ensures books == old(books)[f.book := Book(l.book, l.about, owner, false, [f.version])]
      ensures versions == old(versions)[f.version := Version("1.0.0", false, Some(f.root))]
      ensures collections == old(collections)
        [f.root := Collection("Root", "", None, false, true, false)]
        [f.leaf := Collection(l.collection, "", Some(f.root), true, false, false)]
        [f.branch := Collection(l.collection, "", Some(f.root), false, false, false)]
        [f.sub := Collection(l.sub, "", Some(f.branch), true, false, false)]
      ensures sections == old(sections)[f.section := Section(l.section, owner, f.leaf, false)]
      ensures interpretations == old(interpretations)
        [f.interpretation := Interpretation(l.interpretation, owner, f.section, false)]
      ensures comments == old(comments)
        [f.comment := Comment(l.comment, owner, f.interpretation, None, false)]
    {
      // A book's version list and a version's root are the relationships the
      // later saves fill in.
      var b, v, root, leaf := nextId, nextId + 1, nextId + 2, nextId + 3;
      var s, i, k := nextId + 4, nextId + 5, nextId + 6;
      var branch, sub := nextId + 7, nextId + 8;
      f := Fixture.FixtureIds(b, v, root, leaf, s, i, k, branch, sub, nextId + 9, nextId + 10);
      nextId := nextId + 9;
      books := books[b := Book(l.book, l.about, owner, false, [v])];
      versions := versions[v := Version("1.0.0", false, Some(root))];
      collections := collections[root := Collection("Root", "", None, false, true, false)];
      collections := collections[leaf := Collection(l.collection, "", Some(root), true, false, false)];
      sections := sections[s := Section(l.section, owner, leaf, false)];
      interpretations := interpretations[i := Interpretation(l.interpretation, owner, s, false)];
      comments := comments[k := Comment(l.comment, owner, i, None, false)];
      collections := collections[branch := Collection(l.collection, "", Some(root), false, false, false)];
      collections := collections[sub := Collection(l.sub, "", Some(branch), true, false, false)];
    }

    /**
     * The fixture's two access groups, then for each of them a binding of the
     * book and of each of its four collections.
     */
    method BindTestGroups(f: Fixture.FixtureIds)
      requires nextId == f.editorGroup && f.moderatorGroup == f.editorGroup + 1
      modifies this`accessGroups, this`bookAccess, this`collectionAccess, this`nextId
      ensures nextId == old(nextId) + 2
      ensures accessGroups == old(accessGroups)
        [f.editorGroup := AccessGroup(f.book, EditorGroup)]
        [f.moderatorGroup := AccessGroup(f.book, ModeratorGroup)]
      ensures bookAccess == old(bookAccess) +
        Fixture.Bindings({f.book}, [f.editorGroup, f.moderatorGroup])
      ensures collectionAccess == old(collectionAccess) +
        Fixture.Bindings({f.root, f.leaf, f.branch, f.sub}, [f.editorGroup, f.moderatorGroup])
    {
      var editors := nextId;
      accessGroups := accessGroups[editors := AccessGroup(f.book, EditorGroup)];
      var moderators := nextId + 1;
      accessGroups := accessGroups[moderators := AccessGroup(f.book, ModeratorGroup)];
      nextId := nextId + 2;
      var groups := [editors, moderators];
      ghost var targets := {f.root, f.leaf, f.branch, f.sub};
      for j := 0 to |groups|
        modifies this`bookAccess, this`collectionAccess
        invariant forall p :: p in bookAccess <==>
          p in old(bookAccess) || (p.0 == f.book && p.1 in groups[..j])
        invariant forall p :: p in collectionAccess <==>
          p in old(collectionAccess) || (p.0 in targets && p.1 in groups[..j])
      {
        var g := groups[j];
        assert groups[..j + 1] == groups[..j] + [g];
        bookAccess := bookAccess + {(f.book, g)};
        collectionAccess := collectionAccess + {(f.root, g), (f.leaf, g), (f.branch, g), (f.sub, g)};
      }
      assert groups[..|groups|] == groups;
      ghost var bookBound := old(bookAccess) + Fixture.Bindings({f.book}, groups);
      assert forall p :: p in bookAccess <==> p in bookBound;
      assert bookAccess == bookBound;
      ghost var collectionBound := old(collectionAccess) + Fixture.Bindings(targets, groups);
      assert forall p :: p in collectionAccess <==> p in collectionBound;
      assert collectionAccess == collectionBound;
    }

    /** Replace every table at once, as a committed transaction does. */
    method Commit(next: Db)
      modifies this
      ensures State() == next
    {
      books, versions, collections := next.books, next.versions, next.collections;
      sections, interpretations, comments := next.sections, next.interpretations, next.comments;
      contributors, accessGroups, nextId := next.contributors, next.accessGroups, next.nextId;
      bookAccess, collectionAccess := next.bookAccess, next.collectionAccess;
      SameTables(State(), next);
    }

    /**
     * A cascade soft delete of a book, specified by what the tests' helpers
     * check: only deleted flags go up, the book is deleted and the store
     * passes the book check for "deleted".  The body commits
     * NestedDeletion.MarkBookDeleted, one cascade with that property.
     */
    method SoftDeleteBook(bookId: BookId)
      requires Valid() && bookId in books && NestedDeletion.VersionsHaveRoots(State(), bookId)
      modifies this
      ensures NestedDeletion.OnlyFlagsRaised(old(State()), State())
      ensures books[bookId].isDeleted && NestedDeletion.BookCheck(State(), bookId, true)
      ensures Valid()
    {
      ghost var before := State();
      var r := NestedDeletion.MarkBookDeleted(State(), bookId);
      NestedDeletion.MarkBookDeletedPassesBookCheck(before, bookId);
      Commit(r);
    }
  }
}

=== FILE: tree.dfy ===
/**
 * The rules the book views enforce before they write a book or a collection:
 * each view is a function from the store before the request to its outcome
 * and the store after it.  Guards run in the order the views run them, and a
 * view that refuses leaves the store as it was.
 */
module CollectionTree {
  import opened Records

  // ---------------------------------------------------------------------------
  // Queries the views run

  /**
   * The owner check the collection views and the duplicated contributor views
   * run first: the book exists, is the caller's and is not deleted.
   */
  predicate OwnsLiveBook(db: Db, caller: UserId, bookId: BookId)
  {
    bookId in db.books && db.books[bookId].owner == caller && !db.books[bookId].isDeleted
  }

  /** The weaker guard of collection deletion, which does not look at the book's deleted flag. */
  predicate OwnsBook(db: Db, caller: UserId, bookId: BookId)
  {
    bookId in db.books && db.books[bookId].owner == caller
  }

  /** The collection exists and is not soft-deleted. */
  predicate IsLive(db: Db, c: CollectionId)
  {
    c in db.collections && !db.collections[c].isDeleted
  }

  /**
   * `book.versions[-1].root_collection.id`: the root of the book's last
   * version, or None where evaluating that expression raises.
   */
  function LastRoot(db: Db, bookId: BookId): (r: Option<CollectionId>)
    requires bookId in db.books
    ensures r.Some? ==>
      var vs := db.books[bookId].versions;
      |vs| > 0 && vs[|vs| - 1] in db.versions && db.versions[vs[|vs| - 1]].root == r
    ensures WellFormed(db) && |db.books[bookId].versions| > 0 && r.None? ==>
      var vs := db.books[bookId].versions;
      db.versions[vs[|vs| - 1]].root.None?
  {
    var vs := db.books[bookId].versions;
    if |vs| == 0 || vs[|vs| - 1] !in db.versions then None
    else db.versions[vs[|vs| - 1]].root
  }

  /**
   * The uniqueness query: a live collection other than `exclude` hangs under
   * `parent` and carries `title`.
   */
  predicate LabelTaken(cs: map<CollectionId, Collection>, parent: CollectionId, title: string,
                       exclude: Option<CollectionId>)
  {
    exists c :: c in cs && !cs[c].isDeleted && cs[c].title == title &&
                cs[c].parent == Some(parent) && exclude != Some(c)
  }

  /** No two live collections with the same parent share a title. */
  ghost predicate SiblingLabelsUnique(cs: map<CollectionId, Collection>)
  {
    forall a, b ::
      (a in cs && b in cs && a != b && !cs[a].isDeleted && !cs[b].isDeleted &&
       cs[a].parent.Some? && cs[a].parent == cs[b].parent) ==> cs[a].title != cs[b].title
  }

  // ---------------------------------------------------------------------------
  // create

  /**
   * `create`: insert the book, its version "1.0.0" and that version's root
   * collection "Root Collection".  The book's `about` is not set by the view.
   */
  function CreateBook(db: Db, caller: UserId, title: string, formValid: bool): (r: Step)
    ensures r.outcome == Ok <==> formValid
    ensures r.outcome == FormRejected <==> !formValid
    ensures r.outcome != Ok ==> r.db == db
    ensures r.outcome == Ok ==>
      r.db == db.(books := r.db.books, versions := r.db.versions,
                  collections := r.db.collections, nextId := r.db.nextId)
  {
    if !formValid then Step(FormRejected, db)
    else
      var b, v, root := db.nextId, db.nextId + 1, db.nextId + 2;
      Step(Ok, db.(books := db.books[b := Book(title, "", caller, false, [v])],
                   versions := db.versions[v := Version("1.0.0", false, Some(root))],
                   collections := db.collections[root :=
                     Collection("Root Collection", "", None, false, true, false)],
                   nextId := db.nextId + 3))
  }

  /** Creating a book keeps every reference resolved and every id below the counter. */
  lemma CreateBookKeepsWellFormed(db: Db, caller: UserId, title: string, formValid: bool)
    requires WellFormed(db)
    ensures WellFormed(CreateBook(db, caller, title, formValid).db)
  {
    var r := CreateBook(db, caller, title, formValid).db;
    if formValid {
      var b, v, root := db.nextId, db.nextId + 1, db.nextId + 2;
      forall k | k in r.books
        ensures k < r.nextId && forall u :: u in r.books[k].versions ==> u in r.versions
      {
        if k != b {
          assert r.books[k] == db.books[k];
        }
      }
      forall k | k in r.collections
        ensures k < r.nextId &&
                (r.collections[k].parent.Some? ==> r.collections[k].parent.value in r.collections)
      {
        if k != root {
          assert r.collections[k] == db.collections[k];
        }
      }
    }
  }

  /**
   * `after` is `before` with exactly one new book `b` owned by `caller`, whose
   * only version is a new "1.0.0" version `v`, whose root is a new collection
   * `root` labelled "Root Collection" with is_root set; every existing row is
   * kept.
   */
  ghost predicate BookScaffold(before: Db, after: Db, caller: UserId, title: string,
                               b: BookId, v: VersionId, root: CollectionId)
  {
    && b !in before.books && after.books.Keys == before.books.Keys + {b}
    && v !in before.versions && after.versions.Keys == before.versions.Keys + {v}
    && root !in before.collections && after.collections.Keys == before.collections.Keys + {root}
    && (forall k :: k in before.books ==> after.books[k] == before.books[k])
    && (forall k :: k in before.versions ==> after.versions[k] == before.versions[k])
    && (forall k :: k in before.collections ==> after.collections[k] == before.collections[k])
    && after.books[b].owner == caller && after.books[b].title == title
    && !after.books[b].isDeleted && after.books[b].versions == [v]
    && after.versions[v].semver == "1.0.0" && !after.versions[v].isDeleted
    && after.versions[v].root == Some(root)
    && after.collections[root].title == "Root Collection" && after.collections[root].isRoot
    && !after.collections[root].isLeaf && after.collections[root].parent.None?
    && !after.collections[root].isDeleted
  }

  /** A successful create builds the scaffold of a new book and nothing else. */
  lemma CreateBookScaffold(db: Db, caller: UserId, title: string)
    requires WellFormed(db)
    ensures var r := CreateBook(db, caller, title, true);
      r.outcome == Ok &&
      exists b, v, root :: BookScaffold(db, r.db, caller, title, b, v, root)
  {
    assert db.nextId !in db.books && db.nextId + 1 !in db.versions &&
           db.nextId + 2 !in db.collections;
    CreateBookFresh(db, caller, title);
  }

  lemma CreateBookFresh(db: Db, caller: UserId, title: string)
    requires db.nextId !in db.books && db.nextId + 1 !in db.versions
    requires db.nextId + 2 !in db.collections
    ensures var r := CreateBook(db, caller, title, true);
      r.outcome == Ok &&
      BookScaffold(db, r.db, caller, title, db.nextId, db.nextId + 1, db.nextId + 2)
  {
    var r := CreateBook(db, caller, title, true);
    assert r.db.books.Keys == db.books.Keys + {db.nextId};
    assert r.db.versions.Keys == db.versions.Keys + {db.nextId + 1};
    assert r.db.collections.Keys == db.collections.Keys + {db.nextId + 2};
  }

  /**
   * A change that only adds or updates collections and moves the counter
   * forward keeps the store well formed as long as the collections' own
   * parents resolve.
   */
  lemma CollectionsChangeKeepsWellFormed(before: Db, after: Db)
    requires WellFormed(before) && CollectionsResolved(after)
    requires after == before.(collections := after.collections, nextId := after.nextId)
    requires before.nextId <= after.nextId
    requires forall k :: k in before.collections ==> k in after.collections
    ensures WellFormed(after)
  {
  }

  /** Right after `create`, the new book's last root is the root collection it created. */
  lemma CreateBookLastRoot(db: Db, caller: UserId, title: string)
    ensures var made := CreateBook(db, caller, title, true).db;
      db.nextId in made.books && LastRoot(made, db.nextId) == Some(db.nextId + 2)
  {
  }

  // ---------------------------------------------------------------------------
  // collection_create

  /**
   * The parent the uniqueness query looks under: the URL's collection when
   * one is given, otherwise the root of the book's last version.
   */
  function CreateScope(db: Db, bookId: BookId, parent: Option<CollectionId>)
    : (r: Option<CollectionId>)
    requires bookId in db.books
    ensures parent.Some? ==> r == parent
    ensures parent.None? ==> r == LastRoot(db, bookId)
  {
    if parent.Some? then parent else LastRoot(db, bookId)
  }

  /** The guards of `collection_create` that run before the form is read all pass. */
  predicate CreateGuardsPass(db: Db, caller: UserId, bookId: BookId, parent: Option<CollectionId>)
  {
    OwnsLiveBook(db, caller, bookId) &&
    (parent.Some? ==> IsLive(db, parent.value) && !db.collections[parent.value].isLeaf)
  }

  /**
   * `collection_create` (no `parent`) and `create_sub_collection` (`parent`
   * is the URL's collection id).  The new collection's parent is evaluated as
   * the last version's root even for a sub-collection (and then replaced), so
   * a book without a last root fails after the uniqueness check there too.
   */
  function CreateCollection(db: Db, caller: UserId, bookId: BookId, parent: Option<CollectionId>,
                            title: string, about: string, formValid: bool): (r: Step)
    ensures r.outcome == NotOwner <==> !OwnsLiveBook(db, caller, bookId)
    ensures r.outcome == CollectionNotFound <==>
      OwnsLiveBook(db, caller, bookId) && parent.Some? && !IsLive(db, parent.value)
    ensures r.outcome == LeafParent <==>
      OwnsLiveBook(db, caller, bookId) && parent.Some? && IsLive(db, parent.value) &&
      db.collections[parent.value].isLeaf
    ensures r.outcome == FormRejected <==>
      CreateGuardsPass(db, caller, bookId, parent) && !formValid
    ensures r.outcome == DuplicateLabel <==>
      CreateGuardsPass(db, caller, bookId, parent) && formValid &&
      CreateScope(db, bookId, parent).Some? &&
      LabelTaken(db.collections, CreateScope(db, bookId, parent).value, title, None)
    ensures r.outcome == Ok <==>
      CreateGuardsPass(db, caller, bookId, parent) && formValid &&
      LastRoot(db, bookId).Some? &&
      !LabelTaken(db.collections, CreateScope(db, bookId, parent).value, title, None)
    ensures r.outcome == Unhandled <==>
      CreateGuardsPass(db, caller, bookId, parent) && formValid && LastRoot(db, bookId).None? &&
      (CreateScope(db, bookId, parent).Some? ==>
         !LabelTaken(db.collections, CreateScope(db, bookId, parent).value, title, None))
    ensures r.outcome != Ok ==> r.db == db
    ensures r.outcome == Ok ==>
      r.db == db.(collections := r.db.collections, nextId := db.nextId + 1) &&
      r.db.collections.Keys == db.collections.Keys + {db.nextId}
  {
    if !OwnsLiveBook(db, caller, bookId) then Step(NotOwner, db)
    else if parent.Some? && !IsLive(db, parent.value) then Step(CollectionNotFound, db)
    else if parent.Some? && db.collections[parent.value].isLeaf then Step(LeafParent, db)
    else if !formValid then Step(FormRejected, db)
    else
      match CreateScope(db, bookId, parent)
      case None => Step(Unhandled, db)
      case Some(scope) =>
        if LabelTaken(db.collections, scope, title, None) then Step(DuplicateLabel, db)
        else if LastRoot(db, bookId).None? then Step(Unhandled, db)
        else
          var c := Collection(title, about, Some(scope), parent.Some?, false, false);
          Step(Ok, db.(collections := db.collections[db.nextId := c], nextId := db.nextId + 1))
  }

  lemma CreateCollectionKeepsWellFormed(db: Db, caller: UserId, bookId: BookId,
                                        parent: Option<CollectionId>, title: string,
                                        about: string, formValid: bool)
    requires WellFormed(db)
    ensures WellFormed(CreateCollection(db, caller, bookId, parent, title, about, formValid).db)
  {
    var r := CreateCollection(db, caller, bookId, parent, title, about, formValid);
    if r.outcome == Ok {
      var id := db.nextId;
      var scope := CreateScope(db, bookId, parent).value;
      assert r.db.collections == db.collections[id := r.db.collections[id]];
      assert r.db.collections[id].parent == Some(scope) && scope in db.collections;
      forall k | k in r.db.collections
        ensures k < r.db.nextId &&
                (r.db.collections[k].parent.Some? ==>
                   r.db.collections[k].parent.value in r.db.collections)
      {
        if k != id {
          assert r.db.collections[k] == db.collections[k];
        }
      }
      CollectionsChangeKeepsWellFormed(db, r.db);
    }
  }

  /**
   * A successful create adds exactly one collection, live and not a root,
   * under the given collection as a leaf, otherwise under the last version's
   * root as a non-leaf; every existing collection is kept.
   */
  lemma CreateAddsOneCollection(db: Db, caller: UserId, bookId: BookId,
                                parent: Option<CollectionId>, title: string, about: string)
    requires db.nextId !in db.collections
    requires CreateCollection(db, caller, bookId, parent, title, about, true).outcome == Ok
    ensures var after := CreateCollection(db, caller, bookId, parent, title, about, true).db;
      var id := db.nextId;
      id !in db.collections && id in after.collections &&
      |after.collections| == |db.collections| + 1 &&
      (forall c :: c in db.collections ==> after.collections[c] == db.collections[c]) &&
      after.collections[id].title == title && after.collections[id].about == about &&
      after.collections[id].parent == (if parent.Some? then parent else LastRoot(db, bookId)) &&
      after.collections[id].isLeaf == parent.Some? &&
      !after.collections[id].isRoot && !after.collections[id].isDeleted
  {
    var after := CreateCollection(db, caller, bookId, parent, title, about, true).db;
    assert after.collections.Keys == db.collections.Keys + {db.nextId};
  }

  /** Creating the same collection twice: the second create is refused as a duplicate. */
  lemma CreateTwiceDuplicate(db: Db, caller: UserId, bookId: BookId, parent: Option<CollectionId>,
                             title: string, about: string, about2: string)
    requires db.nextId !in db.collections
    requires CreateCollection(db, caller, bookId, parent, title, about, true).outcome == Ok
    ensures var after := CreateCollection(db, caller, bookId, parent, title, about, true).db;
      CreateCollection(after, caller, bookId, parent, title, about2, true) ==
      Step(DuplicateLabel, after)
  {
    var after := CreateCollection(db, caller, bookId, parent, title, about, true).db;
    var id := db.nextId;
    assert parent.Some? ==> parent.value != id;
    assert after.books == db.books && after.versions == db.versions;
    assert LastRoot(after, bookId) == LastRoot(db, bookId);
    assert after.collections[id].parent == CreateScope(after, bookId, parent);
    assert LabelTaken(after.collections, CreateScope(after, bookId, parent).value, title, None);
  }

  /**
   * A collection created at the top of a freshly created book goes under the
   * book's new root, and is accepted whatever its label, since the new root
   * has no children yet.
   */
  lemma CreateBookThenCollection(db: Db, caller: UserId, title: string, collectionTitle: string,
                                 about: string)
    requires CollectionsResolved(db)
    ensures var made := CreateBook(db, caller, title, true).db;
      var r := CreateCollection(made, caller, db.nextId, None, collectionTitle, about, true);
      r.outcome == Ok && r.db.collections[made.nextId].parent == Some(db.nextId + 2)
  {
    var made := CreateBook(db, caller, title, true).db;
    var root := db.nextId + 2;
    CreateBookLastRoot(db, caller, title);
    assert CreateScope(made, db.nextId, None) == Some(root);
    assert !LabelTaken(made.collections, root, collectionTitle, None);
  }

  /** Creation keeps live sibling labels unique. */
  lemma CreateKeepsSiblingLabelsUnique(db: Db, caller: UserId, bookId: BookId,
                                       parent: Option<CollectionId>, title: string,
                                       about: string, formValid: bool)
    requires WellFormed(db) && SiblingLabelsUnique(db.collections)
    ensures SiblingLabelsUnique(
      CreateCollection(db, caller, bookId, parent, title, about, formValid).db.collections)
  {
    var r := CreateCollection(db, caller, bookId, parent, title, about, formValid);
    if r.outcome == Ok {
      var cs := r.db.collections;
      var id := db.nextId;
      assert id !in db.collections;
      var scope := CreateScope(db, bookId, parent).value;
      assert cs[id].parent == Some(scope) && cs[id].title == title;
      forall a, b | a in cs && b in cs && a != b && !cs[a].isDeleted && !cs[b].isDeleted &&
                    cs[a].parent.Some? && cs[a].parent == cs[b].parent
        ensures cs[a].title != cs[b].title
      {
        if a == id {
          assert cs[b] == db.collections[b];
        } else if b == id {
          assert cs[a] == db.collections[a];
        } else {
          assert cs[a] == db.collections[a] && cs[b] == db.collections[b];
        }
      }
    }
  }

  // ---------------------------------------------------------------------------
  // collection_edit

  /** The collection an edit or delete acts on: the sub-collection when given. */
  function Target(collectionId: CollectionId, sub: Option<CollectionId>): (t: CollectionId)
  {
    if sub.Some? then sub.value else collectionId
  }

  /**
   * The parent the edit's uniqueness query looks under: the URL's collection
   * when a sub-collection is edited, otherwise the target's own parent; None
   * where `collection_to_edit.parent.id` raises.
   */
  function EditScope(db: Db, collectionId: CollectionId, sub: Option<CollectionId>)
    : (r: Option<CollectionId>)
    requires Target(collectionId, sub) in db.collections
    ensures sub.Some? ==> r == Some(collectionId)
    ensures sub.None? && r.Some? ==> db.collections[collectionId].parent == r
    ensures sub.None? && WellFormed(db) ==> (r.None? <==> db.collections[collectionId].parent.None?)
  {
    if sub.Some? then Some(collectionId)
    else
      var p := db.collections[collectionId].parent;
      if p.Some? && p.value in db.collections then p else None
  }

  /** Partial update: an empty field leaves the stored value unchanged. */
  function Edited(c: Collection, title: string, about: string): (e: Collection)
    ensures e.title == (if title == "" then c.title else title)
    ensures e.about == (if about == "" then c.about else about)
    ensures e.parent == c.parent && e.isLeaf == c.isLeaf && e.isRoot == c.isRoot
    ensures e.isDeleted == c.isDeleted
  {
    c.(title := if title != "" then title else c.title,
       about := if about != "" then about else c.about)
  }

  /** An edit whose label and description are both empty leaves the collection as it was. */
  lemma EditedEmptyKeeps(c: Collection)
    ensures Edited(c, "", "") == c
  {
  }

  /**
   * Two edits in a row are one edit with the later non-empty fields: in
   * particular repeating an edit changes nothing more.
   */
  lemma EditedThenEdited(c: Collection, title1: string, about1: string, title2: string,
                         about2: string)
    ensures Edited(Edited(c, title1, about1), title2, about2) ==
            Edited(c, if title2 == "" then title1 else title2,
                   if about2 == "" then about1 else about2)
    ensures Edited(Edited(c, title1, about1), title1, about1) == Edited(c, title1, about1)
  {
  }

  /**
   * When a sub-collection is edited through its real parent, and whenever a
   * collection with a parent is edited, the uniqueness query looks under the
   * target's own parent.
   */
  lemma EditScopeIsRealParent(db: Db, collectionId: CollectionId, sub: Option<CollectionId>)
    requires CollectionsResolved(db)
    requires Target(collectionId, sub) in db.collections
    requires db.collections[Target(collectionId, sub)].parent.Some?
    requires sub.Some? ==> db.collections[sub.value].parent == Some(collectionId)
    ensures EditScope(db, collectionId, sub) == db.collections[Target(collectionId, sub)].parent
  {
  }

  /** The guards of `collection_edit` and `collection_delete` on the URL's collections pass. */
  predicate TargetsLive(db: Db, collectionId: CollectionId, sub: Option<CollectionId>)
  {
    IsLive(db, collectionId) && (sub.Some? ==> IsLive(db, sub.value))
  }

  /**
   * `collection_edit`: edit the collection, or the sub-collection when one is
   * given, refusing a title another live collection already has under the
   * scope parent.
   */
  function EditCollection(db: Db, caller: UserId, bookId: BookId, collectionId: CollectionId,
                          sub: Option<CollectionId>, title: string, about: string,
                          formValid: bool): (r: Step)
    ensures r.outcome == NotOwner <==> !OwnsLiveBook(db, caller, bookId)
    ensures r.outcome == CollectionNotFound <==>
      OwnsLiveBook(db, caller, bookId) && !IsLive(db, collectionId)
    ensures r.outcome == SubCollectionNotFound <==>
      OwnsLiveBook(db, caller, bookId) && IsLive(db, collectionId) && sub.Some? &&
      !IsLive(db, sub.value)
    ensures r.outcome == FormRejected <==>
      OwnsLiveBook(db, caller, bookId) && TargetsLive(db, collectionId, sub) && !formValid
    ensures r.outcome == Unhandled <==>
      OwnsLiveBook(db, caller, bookId) && TargetsLive(db, collectionId, sub) && formValid &&
      EditScope(db, collectionId, sub).None?
    ensures r.outcome == DuplicateLabel <==>
      OwnsLiveBook(db, caller, bookId) && TargetsLive(db, collectionId, sub) && formValid &&
      EditScope(db, collectionId, sub).Some? &&
      LabelTaken(db.collections, EditScope(db, collectionId, sub).value, title,
                 Some(Target(collectionId, sub)))
    ensures r.outcome == Ok <==>
      OwnsLiveBook(db, caller, bookId) && TargetsLive(db, collectionId, sub) && formValid &&
      EditScope(db, collectionId, sub).Some? &&
      !LabelTaken(db.collections, EditScope(db, collectionId, sub).value, title,
                  Some(Target(collectionId, sub)))
    ensures r.outcome != Ok ==> r.db == db
    ensures r.outcome == Ok ==>
      var t := Target(collectionId, sub);
      r.db == db.(collections := r.db.collections) &&
      r.db.collections.Keys == db.collections.Keys &&
      (forall c :: c in db.collections && c != t ==> r.db.collections[c] == db.collections[c]) &&
      r.db.collections[t].title == (if title == "" then db.collections[t].title else title) &&
      r.db.collections[t].about == (if about == "" then db.collections[t].about else about) &&
      r.db.collections[t].parent == db.collections[t].parent &&
      r.db.collections[t].isLeaf == db.collections[t].isLeaf &&
      r.db.collections[t].isRoot == db.collections[t].isRoot &&
      !r.db.collections[t].isDeleted
  {
    if !OwnsLiveBook(db, caller, bookId) then Step(NotOwner, db)
    else if !IsLive(db, collectionId) then Step(CollectionNotFound, db)
    else if sub.Some? && !IsLive(db, sub.value) then Step(SubCollectionNotFound, db)
    else if !formValid then Step(FormRejected, db)
    else
      var t := Target(collectionId, sub);
      match EditScope(db, collectionId, sub)
      case None => Step(Unhandled, db)
      case Some(scope) =>
        if LabelTaken(db.collections, scope, title, Some(t)) then Step(DuplicateLabel, db)
        else Step(Ok, db.(collections := db.collections[t := Edited(db.collections[t], title, about)]))
  }

  lemma EditCollectionKeepsWellFormed(db: Db, caller: UserId, bookId: BookId,
                                      collectionId: CollectionId, sub: Option<CollectionId>,
                                      title: string, about: string, formValid: bool)
    requires WellFormed(db)
    ensures WellFormed(
      EditCollection(db, caller, bookId, collectionId, sub, title, about, formValid).db)
  {
    var r := EditCollection(db, caller, bookId, collectionId, sub, title, about, formValid);
    if r.outcome == Ok {
      forall k | k in r.db.collections
        ensures k < r.db.nextId &&
                (r.db.collections[k].parent.Some? ==>
                   r.db.collections[k].parent.value in r.db.collections)
      {
        assert r.db.collections[k].parent == db.collections[k].parent;
      }
      CollectionsChangeKeepsWellFormed(db, r.db);
    }
  }

  /**
   * Editing a root collection without a sub-collection id fails on
   * `collection_to_edit.parent.id` once the guards and the form pass, and
   * nothing is written.
   */
  lemma EditRootUnhandled(db: Db, caller: UserId, bookId: BookId, root: CollectionId,
                          title: string, about: string)
    requires OwnsLiveBook(db, caller, bookId) && IsLive(db, root)
    requires db.collections[root].parent.None?
    ensures EditCollection(db, caller, bookId, root, None, title, about, true) == Step(Unhandled, db)
  {
  }

  /**
   * Editing keeps live sibling labels unique when the scope the view checks
   * is the target's real parent: always for a collection, and for a
   * sub-collection when the URL's collection is its parent.
   */
  lemma EditKeepsSiblingLabelsUnique(db: Db, caller: UserId, bookId: BookId,
                                     collectionId: CollectionId, sub: Option<CollectionId>,
                                     title: string, about: string, formValid: bool)
    requires SiblingLabelsUnique(db.collections)
    requires sub.Some? && sub.value in db.collections ==>
             db.collections[sub.value].parent == Some(collectionId)
    ensures SiblingLabelsUnique(
      EditCollection(db, caller, bookId, collectionId, sub, title, about, formValid).db.collections)
  {
    var r := EditCollection(db, caller, bookId, collectionId, sub, title, about, formValid);
    if r.outcome == Ok {
      var cs := r.db.collections;
      var t := Target(collectionId, sub);
      var scope := EditScope(db, collectionId, sub).value;
      assert db.collections[t].parent == Some(scope);
      forall a, b | a in cs && b in cs && a != b && !cs[a].isDeleted && !cs[b].isDeleted &&
                    cs[a].parent.Some? && cs[a].parent == cs[b].parent
        ensures cs[a].title != cs[b].title
      {
        if a == t && title != "" {
          assert cs[b] == db.collections[b];
        } else if b == t && title != "" {
          assert cs[a] == db.collections[a];
        } else {
          assert cs[a].title == db.collections[a].title && cs[b].title == db.collections[b].title;
          assert cs[a].parent == db.collections[a].parent;
          assert cs[b].parent == db.collections[b].parent;
        }
      }
    }
  }

  /**
   * The view does not check that the sub-collection hangs under the URL's
   * collection.  An edit through a URL naming a collection under which the
   * label is free succeeds even when a live sibling of the sub-collection
   * already has that label (the requires imply that the URL's collection is
   * not the sub-collection's parent), and then two live siblings share it.
   */
  lemma EditThroughForeignParentBreaksUniqueness(db: Db, caller: UserId, bookId: BookId,
                                                 collectionId: CollectionId, sub: CollectionId,
                                                 sibling: CollectionId, title: string,
                                                 about: string)
    requires OwnsLiveBook(db, caller, bookId)
    requires IsLive(db, collectionId) && IsLive(db, sub) && IsLive(db, sibling) && sibling != sub
    requires db.collections[sub].parent.Some?
    requires db.collections[sibling].parent == db.collections[sub].parent
    requires db.collections[sibling].title == title && title != ""
    requires !LabelTaken(db.collections, collectionId, title, Some(sub))
    ensures db.collections[sub].parent != Some(collectionId)
    ensures var r := EditCollection(db, caller, bookId, collectionId, Some(sub), title, about, true);
      r.outcome == Ok && !SiblingLabelsUnique(r.db.collections)
  {
    var r := EditCollection(db, caller, bookId, collectionId, Some(sub), title, about, true);
    assert r.db.collections[sub].title == title;
    assert r.db.collections[sibling] == db.collections[sibling];
  }

  /**
   * The scope the edit's uniqueness query evidently means: the target's own
   * parent whenever it has one, whether or not a sub-collection id is given.
   * A target without a parent keeps the view's scope.
   */
  function ParentScope(db: Db, collectionId: CollectionId, sub: Option<CollectionId>)
    : (r: Option<CollectionId>)
    requires Target(collectionId, sub) in db.collections
    ensures var p := db.collections[Target(collectionId, sub)].parent;
            p.Some? && p.value in db.collections ==> r == p
    ensures db.collections[Target(collectionId, sub)].parent.None? ==>
            r == EditScope(db, collectionId, sub)
  {
    var p := db.collections[Target(collectionId, sub)].parent;
    if p.Some? && p.value in db.collections then p else EditScope(db, collectionId, sub)
  }

  /**
   * `collection_edit` with the uniqueness query under the target's own
   * parent.  The guards and the form check are those of `EditCollection`.
   */
  function EditCollectionInParent(db: Db, caller: UserId, bookId: BookId,
                                  collectionId: CollectionId, sub: Option<CollectionId>,
                                  title: string, about: string, formValid: bool): (r: Step)
    ensures !(OwnsLiveBook(db, caller, bookId) && TargetsLive(db, collectionId, sub) &&
              formValid) ==>
            r == EditCollection(db, caller, bookId, collectionId, sub, title, about, formValid)
    ensures r.outcome != Ok ==> r.db == db
    ensures r.outcome == Ok ==>
      var t := Target(collectionId, sub);
      t in db.collections &&
      r.db == db.(collections := db.collections[t := Edited(db.collections[t], title, about)])
  {
    if OwnsLiveBook(db, caller, bookId) && TargetsLive(db, collectionId, sub) && formValid then
      var t := Target(collectionId, sub);
      match ParentScope(db, collectionId, sub)
      case None => Step(Unhandled, db)
      case Some(scope) =>
        if LabelTaken(db.collections, scope, title, Some(t)) then Step(DuplicateLabel, db)
        else Step(Ok, db.(collections := db.collections[t := Edited(db.collections[t], title, about)]))
    else EditCollection(db, caller, bookId, collectionId, sub, title, about, formValid)
  }

  /**
   * The corrected edit differs from the view only when a sub-collection is
   * edited through a URL collection that is not its parent.
   */
  lemma EditInParentAgreesThroughRealParent(db: Db, caller: UserId, bookId: BookId,
                                            collectionId: CollectionId,
                                            sub: Option<CollectionId>, title: string,
                                            about: string, formValid: bool)
    requires CollectionsResolved(db)
    requires sub.Some? && sub.value in db.collections ==>
             db.collections[sub.value].parent == Some(collectionId)
    ensures EditCollectionInParent(db, caller, bookId, collectionId, sub, title, about, formValid)
            == EditCollection(db, caller, bookId, collectionId, sub, title, about, formValid)
  {
    if OwnsLiveBook(db, caller, bookId) && TargetsLive(db, collectionId, sub) && formValid {
      assert ParentScope(db, collectionId, sub) == EditScope(db, collectionId, sub);
    }
  }

  /**
   * With the query under the real parent, every edit keeps live sibling
   * labels unique, including one through a foreign URL collection.
   */
  lemma EditInParentKeepsSiblingLabelsUnique(db: Db, caller: UserId, bookId: BookId,
                                             collectionId: CollectionId,
                                             sub: Option<CollectionId>, title: string,
                                             about: string, formValid: bool)
    requires CollectionsResolved(db) && SiblingLabelsUnique(db.collections)
    ensures SiblingLabelsUnique(EditCollectionInParent(db, caller, bookId, collectionId, sub,
                                                       title, about, formValid).db.collections)
  {
    var r := EditCollectionInParent(db, caller, bookId, collectionId, sub, title, about, formValid);
    if r.outcome == Ok {
      var cs := r.db.collections;
      var t := Target(collectionId, sub);
      var scope := ParentScope(db, collectionId, sub).value;
      assert !LabelTaken(db.collections, scope, title, Some(t));
      forall a, b | a in cs && b in cs && a != b && !cs[a].isDeleted && !cs[b].isDeleted &&
                    cs[a].parent.Some? && cs[a].parent == cs[b].parent
        ensures cs[a].title != cs[b].title
      {
        if a == t && title != "" {
          assert cs[b] == db.collections[b];
          assert db.collections[t].parent == Some(scope);
        } else if b == t && title != "" {
          assert cs[a] == db.collections[a];
          assert db.collections[t].parent == Some(scope);
        } else {
          assert cs[a].title == db.collections[a].title && cs[b].title == db.collections[b].title;
          assert cs[a].parent == db.collections[a].parent;
          assert cs[b].parent == db.collections[b].parent;
        }
      }
    }
  }

  // ---------------------------------------------------------------------------
  // collection_delete

  /**
   * `collection_delete`: soft-delete the collection, or the sub-collection
   * when one is given.  Only that row's flag changes.
   */
  function DeleteCollection(db: Db, caller: UserId, bookId: BookId, collectionId: CollectionId,
                            sub: Option<CollectionId>): (r: Step)
    ensures r.outcome == NotOwner <==> !OwnsBook(db, caller, bookId)
    ensures r.outcome == CollectionNotFound <==>
      OwnsBook(db, caller, bookId) && !IsLive(db, collectionId)
    ensures r.outcome == SubCollectionNotFound <==>
      OwnsBook(db, caller, bookId) && IsLive(db, collectionId) && sub.Some? &&
      !IsLive(db, sub.value)
    ensures r.outcome == Ok <==> OwnsBook(db, caller, bookId) && TargetsLive(db, collectionId, sub)
    ensures r.outcome != Ok ==> r.db == db
    ensures r.outcome == Ok ==>
      var t := Target(collectionId, sub);
      r.db == db.(collections := r.db.collections) &&
      r.db.collections.Keys == db.collections.Keys &&
      (forall c :: c in db.collections && c != t ==> r.db.collections[c] == db.collections[c]) &&
      r.db.collections[t] == db.collections[t].(isDeleted := true)
  {
    if !OwnsBook(db, caller, bookId) then Step(NotOwner, db)
    else if !IsLive(db, collectionId) then Step(CollectionNotFound, db)
    else if sub.Some? && !IsLive(db, sub.value) then Step(SubCollectionNotFound, db)
    else
      var t := Target(collectionId, sub);
      Step(Ok, db.(collections := db.collections[t := db.collections[t].(isDeleted := true)]))
  }
  lemma DeleteCollectionKeepsWellFormed(db: Db, caller: UserId, bookId: BookId,
                                        collectionId: CollectionId, sub: Option<CollectionId>)
    requires WellFormed(db)
    ensures WellFormed(DeleteCollection(db, caller, bookId, collectionId, sub).db)
  {
    var r := DeleteCollection(db, caller, bookId, collectionId, sub);
    if r.outcome == Ok {
      forall k | k in r.db.collections
        ensures k < r.db.nextId &&
                (r.db.collections[k].parent.Some? ==>
                   r.db.collections[k].parent.value in r.db.collections)
      {
        assert r.db.collections[k].parent == db.collections[k].parent;
      }
      CollectionsChangeKeepsWellFormed(db, r.db);
    }
  }


  /**
   * Deleting twice: the second delete reports the deleted target as not
   * found (as "Collection not found" when the target was the URL's
   * collection, "SubCollection not found" otherwise) and changes nothing.
   */
  lemma DeleteTwiceNotFound(db: Db, caller: UserId, bookId: BookId, collectionId: CollectionId,
                            sub: Option<CollectionId>)
    requires DeleteCollection(db, caller, bookId, collectionId, sub).outcome == Ok
    ensures var after := DeleteCollection(db, caller, bookId, collectionId, sub).db;
      DeleteCollection(after, caller, bookId, collectionId, sub) ==
      Step(if sub.None? || sub.value == collectionId then CollectionNotFound
           else SubCollectionNotFound, after)
  {
    var after := DeleteCollection(db, caller, bookId, collectionId, sub).db;
    assert !IsLive(after, Target(collectionId, sub));
    assert sub.Some? && sub.value != collectionId ==> IsLive(after, collectionId);
  }

  /**
   * Delete does not look at the book's deleted flag: on a deleted book the
   * owner's delete of a live collection succeeds, while an edit of the same
   * collection is refused as not owned.
   */
  lemma DeleteIgnoresDeletedBook(db: Db, caller: UserId, bookId: BookId,
                                 collectionId: CollectionId, title: string, about: string)
    requires bookId in db.books && db.books[bookId].owner == caller && db.books[bookId].isDeleted
    requires IsLive(db, collectionId)
    ensures DeleteCollection(db, caller, bookId, collectionId, None).outcome == Ok
    ensures EditCollection(db, caller, bookId, collectionId, None, title, about, true).outcome
            == NotOwner
    ensures CreateCollection(db, caller, bookId, None, title, about, true).outcome == NotOwner
  {
  }

  /** Soft-deleting a collection keeps live sibling labels unique. */
  lemma DeleteKeepsSiblingLabelsUnique(db: Db, caller: UserId, bookId: BookId,
                                       collectionId: CollectionId, sub: Option<CollectionId>)
    requires SiblingLabelsUnique(db.collections)
    ensures SiblingLabelsUnique(DeleteCollection(db, caller, bookId, collectionId, sub).db.collections)
  {
    var r := DeleteCollection(db, caller, bookId, collectionId, sub);
    if r.outcome == Ok {
      var cs := r.db.collections;
      forall a, b | a in cs && b in cs && a != b && !cs[a].isDeleted && !cs[b].isDeleted &&
                    cs[a].parent.Some? && cs[a].parent == cs[b].parent
        ensures cs[a].title != cs[b].title
      {
        assert cs[a] == db.collections[a] && cs[b] == db.collections[b];
      }
    }
  }
}

=== FILE: types.dfy ===
/**
 * The persistent rows the book views read and write, as values, and the
 * outcome every view reports.  Identifiers are the integers the store assigns
 * on insert.
 */
module Records {

  datatype Option<+T> = None | Some(value: T)

  type UserId = nat
  type BookId = nat
  type VersionId = nat
  type CollectionId = nat
  type SectionId = nat
  type InterpretationId = nat
  type CommentId = nat
  type GroupId = nat

  // `label` is a Dafny keyword, so the `label` column of books, collections and
  // sections is called `title` here.

  /** A book: its owner, its soft-delete flag and its versions in creation order. */
  datatype Book = Book(title: string, about: string, owner: UserId, isDeleted: bool,
                       versions: seq<VersionId>)

  /** A book version; `root` is its root collection, once one exists. */
  datatype Version = Version(semver: string, isDeleted: bool, root: Option<CollectionId>)

  /** A node of a version's collection tree. */
  datatype Collection = Collection(title: string, about: string, parent: Option<CollectionId>,
                                   isLeaf: bool, isRoot: bool, isDeleted: bool)

  datatype Section = Section(title: string, owner: UserId, collection: CollectionId, isDeleted: bool)

  datatype Interpretation = Interpretation(text: string, owner: UserId, section: SectionId,
                                           isDeleted: bool)

  /** A comment on an interpretation; `parent` is the comment it replies to. */
  datatype Comment = Comment(text: string, owner: UserId, interpretation: InterpretationId,
                             parent: Option<CommentId>, isDeleted: bool)

  /** The members of `BookContributor.Roles` a contributor row can hold. */
  datatype Role = Moderator | Editor

  /** One row of the contributor table. */
  datatype Contributor = Contributor(user: UserId, book: BookId, role: Role)

  datatype GroupKind = EditorGroup | ModeratorGroup

  /** A book-scoped access group. */
  datatype AccessGroup = AccessGroup(book: BookId, kind: GroupKind)

  /** A snapshot of every table the core touches. */
  datatype Db = Db(
    books: map<BookId, Book>,
    versions: map<VersionId, Version>,
    collections: map<CollectionId, Collection>,
    sections: map<SectionId, Section>,
    interpretations: map<InterpretationId, Interpretation>,
    comments: map<CommentId, Comment>,
    contributors: seq<Contributor>,
    accessGroups: map<GroupId, AccessGroup>,
    bookAccess: set<(BookId, GroupId)>,
    collectionAccess: set<(CollectionId, GroupId)>,
    nextId: nat)

  /**
   * Every id in use is below `nextId`, so the next insert gets a fresh id, and
   * every reference between rows points at an existing row (the foreign keys
   * of the relational store).
   */
  ghost predicate WellFormed(db: Db)
  {
    && BooksResolved(db) && VersionsResolved(db) && CollectionsResolved(db)
    && SectionsResolved(db) && InterpretationsResolved(db) && CommentsResolved(db)
    && GroupsResolved(db) && BookAccessResolved(db) && CollectionAccessResolved(db)
  }

  ghost predicate BooksResolved(db: Db)
  {
    forall k :: k in db.books ==>
      k < db.nextId && forall v :: v in db.books[k].versions ==> v in db.versions
  }

  ghost predicate VersionsResolved(db: Db)
  {
    forall k :: k in db.versions ==>
      k < db.nextId && (db.versions[k].root.Some? ==> db.versions[k].root.value in db.collections)
  }

  ghost predicate CollectionsResolved(db: Db)
  {
    forall k :: k in db.collections ==>
      k < db.nextId &&
      (db.collections[k].parent.Some? ==> db.collections[k].parent.value in db.collections)
  }

  ghost predicate SectionsResolved(db: Db)
  {
    forall k :: k in db.sections ==> k < db.nextId && db.sections[k].collection in db.collections
  }

  ghost predicate InterpretationsResolved(db: Db)
  {
    forall k :: k in db.interpretations ==>
      k < db.nextId && db.interpretations[k].section in db.sections
  }

  ghost predicate CommentsResolved(db: Db)
  {
    forall k :: k in db.comments ==>
      k < db.nextId && db.comments[k].interpretation in db.interpretations &&
      (db.comments[k].parent.Some? ==> db.comments[k].parent.value in db.comments)
  }

  ghost predicate GroupsResolved(db: Db)
  {
    forall k :: k in db.accessGroups ==> k < db.nextId && db.accessGroups[k].book in db.books
  }

  ghost predicate BookAccessResolved(db: Db)
  {
    forall p :: p in db.bookAccess ==> p.0 in db.books && p.1 in db.accessGroups
  }

  ghost predicate CollectionAccessResolved(db: Db)
  {
    forall p :: p in db.collectionAccess ==> p.0 in db.collections && p.1 in db.accessGroups
  }

  /** Two snapshots with the same tables are the same snapshot. */
  lemma SameTables(a: Db, b: Db)
    requires a.books == b.books && a.versions == b.versions && a.collections == b.collections
    requires a.sections == b.sections && a.interpretations == b.interpretations
    requires a.comments == b.comments && a.contributors == b.contributors
    requires a.accessGroups == b.accessGroups && a.bookAccess == b.bookAccess
    requires a.collectionAccess == b.collectionAccess && a.nextId == b.nextId
    ensures a == b
  {
  }

  /**
   * What a view reports.  Each non-Ok outcome stands for one flash message
   * (or, for Unhandled, an exception the view does not catch, so the request
   * fails and nothing is committed).
   */
  datatype Outcome =
    | Ok                    // "Success!", "Book added!", "Contributor was added!"
    | NotOwner              // "You are not owner of this book!"
    | CollectionNotFound    // "Collection not found"
    | SubCollectionNotFound // "SubCollection not found"
    | LeafParent            // "You can't create subcollection for this collection"
    | DuplicateLabel        // "Collection label must be unique!"
    | AlreadyExists         // "Already exists!"
    | DoesNotExist          // "Does not exists!"
    | FormRejected          // the submitted form did not validate
    | Unhandled             // an uncaught exception

  /** The outcome of a view together with the store it leaves behind. */
  datatype Step = Step(outcome: Outcome, db: Db)
}
